=== FILE: README.md ===
# type-clean command dispatch, modelled in Dafny

type-clean dispatches commands. A command is a class with a `handle` method.
Decorators attach *subscribers* to a command class:

- `@Use(M)` registers a middleware class `M` whose `use` method runs first;
- `@BeforeCommand(C)` registers a method that runs before `C.handle`;
- `@AfterCommand(C)` registers a method that runs after `C.handle`.

Each decorator takes an optional priority, and higher priorities run first. The
registrations live in one process-wide `MetadataStorage`: three tables (`middleware`,
`before`, `after`), each mapping a command class to its priority-sorted list of
subscriber records. `CommandRunner.run(C, event)` works in this order:

1. It gets the handler instance from a container. A falsy answer fails the run with
   `Invalid handler`.
2. It awaits every middleware hook, then every before hook, each with the event.
3. It awaits `handle(event)` once.
4. It awaits every after hook with the result.
5. It returns the result.

`DefaultContainer` builds one instance per class, on first request, and caches it.

The model is pure and functional. Metadata, Decorators, Containers and Runner each
follow one source file.

| module | file | source |
|---|---|---|
| `Results` | results.dfy | `Option`, `Result` and the error values the core raises |
| `Metadata` | metadata.dfy | `src/metadata/MetadataStorage.ts`: the three tables, `getInstance`, `clear` |
| `Decorators` | decorators.dfy | `src/decorators/index.ts`: `sortByPriority`, `addSubscriber`, `@Use`, `@BeforeCommand`, `@AfterCommand` |
| `Containers` | container.dfy | `src/utils/container.ts`: `DefaultContainer.get`, and the `Container` interface as a default or a pre-bound external container |
| `Runner` | runner.dfy | `src/command/CommandRunner.ts`: `emit` and `run` |
| `Scenarios` | scenarios.dfy | the situations `src/command/CommandRunner.spec.ts` sets up |

Modelling choices:

- **Classes** are natural numbers (`ClassId`). Instances carry their class and a
  construction serial number, so "the same instance" is checkable.
- **The global slot** (`global.__type_clean_metadata_storage__`) is an explicit
  `Option<Storage>` passed in and returned.
- **Calls.** Hook and handler bodies are user code. What each awaited call settles to
  comes from an *oracle*, `Call -> Result<Value, Error>`, where `Err` is a thrown
  error or a rejected promise. A middleware or before hook settles to the event as it
  leaves it; this is how in-place mutation of the shared event object reaches the
  next call. What an after hook returns is ignored, as in the source.
- **A run** is a `RunResult`:
  - its calls, split into the middleware, before, handle and after segments (the
    order they are made in);
  - its outcome;
  - the container afterwards.
- **Emit as a loop.** `Runner.Emit` is the same hook chain written as the source's
  `for … of` loop. It is proved equal to the recursive definition `EmitHooks`.
- **Tie order.** `sortByPriority` calls `Array.prototype.sort` with a comparator that
  never returns 0. For equal priorities the resulting order is therefore up to the
  JavaScript engine. The model fixes one order: an insertion sort that places each
  element ahead of equal-priority elements already placed. Because every registration
  re-sorts the whole list with the new binding appended, the new binding goes ahead of
  the equal-priority bindings already stored, and their order among themselves is
  whatever the re-sort gives. With two ties that is latest declared first; with three,
  declared A, B, C, it is C, A, B (`Scenarios.ThirdEqualHookReordersTies`), not
  declaration order in either direction. `Decorators.SortedArrangementsAgree` shows the
  choice affects only the order among equal-priority bindings: any two sorted
  arrangements run the same sequence of priorities. Which equal-priority hook runs
  first, and so what a later before hook or `handle` sees and which failing hook's
  error becomes the outcome, is the modelling choice.
- **After-hook arguments.** After hooks receive only the handler's result and the
  runner (CommandRunner.ts:42, 62), not the original event.

## Model

| member | source | states |
|---|---|---|
| Metadata.NewStorage | src/metadata/MetadataStorage.ts:26-32 | a new storage holds the three tables, all empty |
| Metadata.GetInstance | src/metadata/MetadataStorage.ts:36-42 | the slot ends up holding the storage returned; a filled slot returns its storage unchanged; an empty slot gets a fresh storage with no bindings |
| Metadata.GetInstanceStable | src/metadata/MetadataStorage.ts:36-42 | once the slot is filled, later `getInstance` calls return the same storage and leave the slot as is |
| Metadata.Lookup | src/command/CommandRunner.ts:55-58 | no contract of its own: the list stored for a class and kind, empty when the class has none; `Decorators.AddSubscriber` (through `Registers`), `Metadata.Clear` and `Runner.EmitShape` state what it returns |
| Metadata.Clear | src/metadata/MetadataStorage.ts:44-48 | afterwards every table is empty and no (kind, class) has a binding, whatever was stored |
| Metadata.ClearIdempotent | src/metadata/MetadataStorage.ts:44-48 | clearing twice is the same as clearing once |
| Decorators.InsertByPriority | src/decorators/index.ts:14-16 | inserting one binding adds exactly it (as a multiset), and keeps a non-increasing list non-increasing |
| Decorators.SortByPriority | src/decorators/index.ts:14-16 | the result is a permutation of the input (same multiset) whose priorities never increase |
| Decorators.SortedArrangementsAgree | src/decorators/index.ts:14-16 | any two priority-sorted permutations of the same bindings have equal priority sequences, so the tie order cannot change which priority runs when |
| Decorators.PriorityOf | src/decorators/index.ts:40 | no contract of its own: the given priority, or 0 when none is given; `Decorators.AddSubscriber` states that the stored binding carries it |
| Decorators.AddSubscriber | src/decorators/index.ts:18-44 | the (kind, class) list gains exactly the new record, with the given priority or 0, and stays sorted; a first registration makes the list exactly that record; every other (kind, class) list and the other kinds' tables are unchanged |
| Decorators.Use | src/decorators/index.ts:46-67 | fails with "@Use() can only be used on Commands." exactly when the decorated property is not `handle`; otherwise registers the middleware's `use` method under the decorated class in the middleware table |
| Decorators.BeforeCommand | src/decorators/index.ts:69-86 | registers the decorated method of the decorated class under the command class in the before table, as `AddSubscriber` describes |
| Decorators.AfterCommand | src/decorators/index.ts:88-105 | the same for the after table |
| Containers.Get | src/utils/container.ts:8-18 | no contract of its own; `Containers.GetContract`, `Containers.GetTwiceSameInstance` and `Containers.GetAllConstructsOnce` state it |
| Containers.GetContract | src/utils/container.ts:8-18 | the class ends up cached with the returned instance; no other entry is added or replaced; a construction happens only on a miss; a consistent cache stays consistent and returns an instance of the class asked for |
| Containers.GetTwiceSameInstance | src/utils/container.ts:8-18 | a second `get` of the same class returns the same instance and leaves the container as the first left it |
| Containers.GetAllConstructsOnce | src/utils/container.ts:5-18 | over any sequence of `get` calls, no class is constructed twice, the cache gains exactly the classes asked for, and no entry is replaced |
| Containers.Resolve | src/utils/container.ts:1-18 | no contract of its own: `container.get` on the default or an external container; `Containers.ResolveContract` states it |
| Containers.ResolveContract | src/utils/container.ts:1-18 | the default container always answers, with an instance of the class when consistent; an external container answers exactly for its bound classes; the container only grows |
| Runner.EmitHooks | src/command/CommandRunner.ts:50-65 | no contract of its own; `Runner.EmitShape`, `Runner.EmitFlow`, `Runner.EmitContainer`, `Runner.EmitEnd` and `Runner.Emit` state it |
| Runner.EmitShape | src/command/CommandRunner.ts:55-64 | a hook chain calls a prefix of the stored list, in stored order, each binding's method, each on an instance of that binding's subscriber class (default container) |
| Runner.EmitFlow | src/command/CommandRunner.ts:50-65 | middleware and before hooks each get the event as the previous hook left it, after hooks all get the same value; nothing is called after a failure, which is the outcome unchanged; an error no call raised is a falsy subscriber from a non-default container; success means every binding was called |
| Runner.EmitContainer | src/command/CommandRunner.ts:59-62 | a hook chain only adds to the container's cache and keeps it consistent |
| Runner.EmitTargetsCached | src/command/CommandRunner.ts:59-62 | on the default container, each hook call goes to the instance the container caches for the binding's subscriber class, and that class stays cached |
| Runner.EmitEnd | src/command/CommandRunner.ts:59-63 | how a chain ends: a failing last call is the outcome, success means every binding was called, and a default container stays the default one |
| Runner.Emit | src/command/CommandRunner.ts:50-65 | the loop makes the same calls, ends the same way and leaves the same container as the recursive chain |
| Runner.Run | src/command/CommandRunner.ts:29-45 | no contract of its own; `Runner.RunShape`, `Runner.RunTargets`, `Runner.RunFlow`, `Runner.RunAfterArgs`, `Runner.RunFailure`, `Runner.RunContainerErrors`, `Runner.RunSuccess` and `Runner.RunKeepsContainer` state it |
| Runner.RunShape | src/command/CommandRunner.ts:29-45 | a falsy handler fails the run with `Invalid handler` before any call; each hook segment follows its stored list; at most one `handle` call, on the resolved handler; phases come in the order middleware, before, handle, after |
| Runner.RunTargets | src/command/CommandRunner.ts:33-42 | on a consistent default container, every hook call goes to the instance the container caches for its subscriber class (so an instance of that class) and `handle` to an instance of the command class |
| Runner.RunHooksCached | src/command/CommandRunner.ts:59-62 | on the default container, every hook call of a run goes to the one instance the container, as the run leaves it, caches for the hook's subscriber class |
| Runner.HandleAfterAllHooks | src/command/CommandRunner.ts:39-41 | `handle` is called only once every stored middleware and before hook was called, and the before hooks only once every middleware hook was |
| Runner.RunFlow | src/command/CommandRunner.ts:39-41 | the first call gets the event; each middleware hook, before hook and the handler gets the event as the call before it left it; no call follows a failed one |
| Runner.RunAfterArgs | src/command/CommandRunner.ts:41-42 | after hooks run only once `handle` has succeeded, and each gets what `handle` returned |
| Runner.RunFailure | src/command/CommandRunner.ts:39-42 | a failing last call is the run's outcome, unchanged |
| Runner.RunContainerErrors | src/command/CommandRunner.ts:33-37 | an error no call raised is `Invalid handler` or a falsy subscriber, and only a non-default container produces one |
| Runner.RunSuccess | src/command/CommandRunner.ts:39-44 | a successful run called every stored hook of the three kinds and `handle` exactly once, and returns what `handle` returned |
| Runner.NothingThrowsRunSucceeds | src/command/CommandRunner.ts:39-44 | on the default container, when no call fails, the run succeeds and calls every hook and `handle` once |
| Runner.RunKeepsContainer | src/command/CommandRunner.ts:33 | a run only adds to the default container and keeps it consistent; the handler stays cached and is what `handle` was called on |
| Runner.HookFailureAborts | src/command/CommandRunner.ts:39-41 | a failing middleware or before hook is the last call: `handle` and the after hooks never run, and its error is the outcome |
| Runner.HandlerFailureSkipsAfterHooks | src/command/CommandRunner.ts:41-42 | a failing `handle` skips every after hook, and its error is the outcome |
| Runner.AfterHookFailurePropagates | src/command/CommandRunner.ts:42-44 | a failing after hook is the last call and the run's outcome, although `handle` already succeeded |
| Runner.RunAfterClear | src/command/CommandRunner.ts:55-64 | after `clear()`, a run on the default container calls only `handle`, once, with the event, on an instance of the command class |
| Runner.RunOnCached | src/utils/container.ts:9-17 | with the handler cached, a run calls `handle` on that cached instance and keeps it cached |
| Runner.RunManyCached | src/utils/container.ts:9-17 | with the handler cached, every run in a sequence uses that one instance and the container stays consistent |
| Runner.RunManyGrows | src/command/CommandRunner.ts:33-61 | over a sequence of runs on one runner the container only grows: the one given grows into the first run's, and each run's into the next one's |
| Runner.RepeatedRunsShareHandler | src/command/CommandRunner.spec.ts:55-59 | repeated runs of one command on one default container never construct a class twice (each run's container grows into the next one's and no construction log repeats a class), and every `handle` call goes to the same instance |
| Scenarios.PrioritiesStoredHighestFirst | src/command/CommandRunner.spec.ts:203-242 | after hooks declared at -1, default and 1 are stored in the order 1, 0, -1 |
| Scenarios.PrioritiesRunHighestFirst | src/command/CommandRunner.spec.ts:203-242 | a run calls those after hooks on subscriber 3, then 2, then 1 |
| Scenarios.EqualPrioritiesLatestFirst | src/decorators/index.ts:14-16 | two equal-priority hooks are stored latest declared first (the model's tie order) |
| Scenarios.ThirdEqualHookReordersTies | src/decorators/index.ts:14-16 | a third equal-priority hook goes first, and the re-sort of the whole list swaps the two stored before it: declared A, B, C, stored C, A, B (the model's tie order) |
| Scenarios.UseOnOtherMethodRejected | src/decorators/index.ts:55-57 | `@Use` on a method other than `handle` is the "@Use() can only be used on Commands." error |
| Scenarios.RejectingMiddlewareStopsRun | src/command/CommandRunner.spec.ts:183-201 | a middleware whose `use` throws stops the run before `handle`, with the middleware's error |
| Scenarios.SimpleCommandTwice | src/command/CommandRunner.spec.ts:29-60 | two runs of a hook-less command return their own events, construct the handler once, and share one handler instance |
| Scenarios.BeforeHookChangesWhatHandleSees | src/command/CommandRunner.spec.ts:276-321 | a before hook's change to the event is what `handle` receives and what the run returns |

## Left out

- Asynchrony: every call is awaited before the next one starts, so a run is modelled as the sequence of its calls; promise scheduling and interleaving of concurrent runs are not modelled.
- Re-entrant runs: an after hook that calls `runner.run` (CommandRunner.spec.ts:291) is a call whose outcome the oracle supplies; the nested run's own calls are not spliced into the trace, and its `get` calls on the shared `this.container` (CommandRunner.ts:33 and 60) are missing from the model's container.
- The container's answer is used without `await` in the source (CommandRunner.ts:33 and 60); the model treats it as the instance itself.
- A subscriber instance that lacks the registered method makes the call throw; that failure is part of what the oracle may answer.
- A constructor that throws inside `DefaultContainer.get` is not modelled; construction always succeeds.
- Non-numeric priorities: only `typeof priority === 'number'` is checked, so `NaN` is stored as given; the model's priorities are integers, and `NaN`, infinities and fractions are not modelled.
- Decorators.SortByPriority: fixes one order for equal priorities (each re-sort puts the new binding ahead of the equal-priority ones already stored, whose order among themselves the re-sort decides, so three ties declared A, B, C are stored C, A, B), where the source leaves it to the engine's sort; `Decorators.SortedArrangementsAgree` is what holds for every order.
- Runner.Run: reads the storage once, as a parameter fixed for the whole run, where `emit` reads the live global storage at every phase and loops over the live array (CommandRunner.ts:55-59); a hook that calls `storage.clear()` or applies a decorator mid-run changes later phases in the source but not in the model.
- Runner.Oracle: is a function of the call, so equal calls settle the same way; two registrations of the same subscriber method (which `addSubscriber` accepts) make identical calls, and a stateful hook or handler that succeeds once and throws later, within one run or across `Runner.RunMany`, cannot be expressed.
- Property keys: `propertyKey: string | symbol` (index.ts:23, 39, 52) is modelled as a string only; symbol keys are not modelled.
- Runner.RunContainerErrors: covers containers whose `get` answers falsy for an unbound class; an external container is a total fixed map whose `get` never throws, so a DI container whose `get` throws for an unbound class is not modelled.
- External containers (the Inversify container in CommandRunner.spec.ts:342-415) are a fixed map from classes to instances; how such a container builds or scopes its instances is not modelled.
- The runner's `handlers` and `subscribers` fields (CommandRunner.ts:19-20) are never read or written by `run` or `emit`, so they are not modelled.
- Mutation of a handler's result by after hooks is not modelled: the run returns what `handle` returned.
- `AbstractCommandHandler` (CommandHandler.ts:8-24) forwards `run` to a runner set through `setRunner`; `CommandRunner` never calls `setRunner` (CommandRunner.ts:29-45), so runner self-injection is not modelled. `Command.ts` and the `Middleware` interface only declare types.
- The repository's `examples/type-graphql/` demo application is not part of this model.

=== FILE: container.dfy ===
/**
  Instance resolution: `DefaultContainer`, a per-class singleton cache, and the
  `Container` interface the runner consumes, of which a pre-configured external
  container is the other model.
 */
module Containers {
  import opened Results
  import opened Metadata

  /** An object made by `new C()`: its class and a serial number that tells apart
      objects made by different constructions. */
  datatype Instance = Instance(cls: ClassId, serial: nat)

  /** `DefaultContainer`: the `instances` cache, plus the log of the classes it has
      constructed, in construction order. */
  datatype DefaultContainer = DefaultContainer(instances: map<ClassId, Instance>, constructed: seq<ClassId>)

  function NewContainer(): DefaultContainer {
    DefaultContainer(map[], [])
  }

  /** The cache agrees with the construction log: every cached class was constructed
      exactly once, cached under its own class, and nothing else was constructed. */
  ghost predicate Valid(d: DefaultContainer) {
    && (forall i, j :: 0 <= i < j < |d.constructed| ==> d.constructed[i] != d.constructed[j])
    && (forall c :: c in d.instances <==> c in d.constructed)
    && (forall c :: c in d.instances ==> d.instances[c].cls == c)
  }

  /** `d` may grow into `e`: every cached entry stays, unchanged, and the log only
      gets longer. */
  ghost predicate Grows(d: DefaultContainer, e: DefaultContainer) {
    && d.instances.Keys <= e.instances.Keys
    && (forall c :: c in d.instances ==> e.instances[c] == d.instances[c])
    && d.constructed <= e.constructed
  }

  /** `get(C)`: the cached instance of `C`, constructing and caching one on first use. */
  function Get(d: DefaultContainer, c: ClassId): (Instance, DefaultContainer) {
    if c !in d.instances then
      var handler := Instance(c, |d.constructed|);
      (handler, DefaultContainer(d.instances[c := handler], d.constructed + [c]))
    else
      (d.instances[c], d)
  }

  /** After `get(C)`, `C` is cached with the instance returned, nothing else is added or
      replaced, a construction happens only on a miss, and a consistent cache stays
      consistent and hands out an instance of `C`. */
  lemma GetContract(d: DefaultContainer, c: ClassId)
    ensures var r := Get(d, c);
      && c in r.1.instances && r.1.instances[c] == r.0
      && r.1.instances.Keys == d.instances.Keys + {c}
      && Grows(d, r.1)
      && (c in d.instances ==> r.1 == d)
      && (c !in d.instances ==> r.0.cls == c && r.1.constructed == d.constructed + [c])
      && (Valid(d) ==> Valid(r.1) && r.0.cls == c)
  {
  }

  /** `get` on every class of `cs` in turn; the container afterwards. */
  function GetAll(d: DefaultContainer, cs: seq<ClassId>): DefaultContainer
    decreases |cs|
  {
    if |cs| == 0 then d else GetAll(Get(d, cs[0]).1, cs[1..])
  }

  /** Asking twice for the same class yields the same instance and constructs nothing
      the second time. */
  lemma GetTwiceSameInstance(d: DefaultContainer, c: ClassId)
    ensures Get(Get(d, c).1, c) == Get(d, c)
  {
  }

  /** Over any sequence of `get` calls, each class is constructed at most once, exactly
      the classes asked for are added to the cache, and the cache only grows. */
  lemma {:induction false} GetAllConstructsOnce(d: DefaultContainer, cs: seq<ClassId>)
    requires Valid(d)
    ensures Valid(GetAll(d, cs))
    ensures GetAll(d, cs).instances.Keys == d.instances.Keys + set c | c in cs
    ensures Grows(d, GetAll(d, cs))
    decreases |cs|
  {
    if |cs| > 0 {
      var d1 := Get(d, cs[0]).1;
      var e := GetAll(d1, cs[1..]);
      assert GetAll(d, cs) == e;
      GetContract(d, cs[0]);
      GetAllConstructsOnce(d1, cs[1..]);
      GrowsTransitive(d, d1, e);
      ElementsOfCons(cs);
    }
  }

  lemma GrowsTransitive(d1: DefaultContainer, d2: DefaultContainer, d3: DefaultContainer)
    requires Grows(d1, d2) && Grows(d2, d3)
    ensures Grows(d1, d3)
  {
  }

  lemma ElementsOfCons(cs: seq<ClassId>)
    requires |cs| > 0
    ensures (set c | c in cs) == {cs[0]} + set c | c in cs[1..]
  {
    assert cs == [cs[0]] + cs[1..];
  }

  /** The `Container` the runner is given: the default one, or an external container
      configured beforehand with one instance per bound class, whose `get` gives a falsy
      value for a class it has no binding for. */
  datatype Resolver = Default(container: DefaultContainer) | External(bound: map<ClassId, Instance>)

  ghost predicate ValidResolver(res: Resolver) {
    res.Default? ==> Valid(res.container)
  }

  /** `res` may become `res'` through `get` calls: same kind of container, and a default
      container only grows. */
  ghost predicate ResolverGrows(res: Resolver, res': Resolver) {
    match res
    case Default(d) => res'.Default? && Grows(d, res'.container)
    case External(_) => res' == res
  }

  /** `container.get(C)`, with a falsy answer as `None`. */
  function Resolve(res: Resolver, c: ClassId): (Option<Instance>, Resolver) {
    match res
    case Default(d) =>
      var (instance, d') := Get(d, c);
      (Some(instance), Default(d'))
    case External(bound) =>
      (if c in bound then Some(bound[c]) else None, res)
  }

  /** The default container always answers, with an instance of the class asked for
      when it is consistent; an external one answers exactly for the classes bound in
      it; either way the container only grows and stays consistent. */
  lemma ResolveContract(res: Resolver, c: ClassId)
    ensures var r := Resolve(res, c);
      && (res.Default? ==> r.0.Some?)
      && (res.External? ==> (r.0.Some? <==> c in res.bound))
      && (r.0.Some? && ValidResolver(res) && res.Default? ==> r.0.value.cls == c)
      && ResolverGrows(res, r.1)
      && (ValidResolver(res) ==> ValidResolver(r.1))
  {
    if res.Default? {
      GetContract(res.container, c);
    }
  }

  lemma ResolverGrowsTransitive(r1: Resolver, r2: Resolver, r3: Resolver)
    requires ResolverGrows(r1, r2) && ResolverGrows(r2, r3)
    ensures ResolverGrows(r1, r3)
  {
  }
}

=== FILE: decorators.dfy ===
/**
  Binding registration: `sortByPriority`, `addSubscriber` and the three decorators
  `@Use`, `@BeforeCommand` and `@AfterCommand`, as functions from a storage to the
  storage after the decorator has been applied.
 */
module Decorators {
  import opened Results
  import opened Metadata

  /** `OnOptions`: `priority` is optional. */
  datatype Options = Options(priority: Option<int>)

  const DefaultOptions := Options(None)

  /** The priority stored for `options`: the number when one was given, otherwise 0. */
  function PriorityOf(options: Options): int {
    match options.priority
    case Some(p) => p
    case None => 0
  }

  /** Highest priority first. */
  ghost predicate SortedByPriority(s: seq<Binding>) {
    forall i, j :: 0 <= i < j < |s| ==> s[i].priority >= s[j].priority
  }

  /** Places `b` ahead of the first element whose priority is not above its own. */
  function InsertByPriority(s: seq<Binding>, b: Binding): (r: seq<Binding>)
    ensures |r| == |s| + 1
    ensures multiset(r) == multiset(s) + multiset{b}
    ensures forall x :: x in r ==> x in s || x == b
    ensures SortedByPriority(s) ==> SortedByPriority(r)
  {
    if |s| == 0 || s[0].priority <= b.priority then
      [b] + s
    else
      var rest := InsertByPriority(s[1..], b);
      assert s == [s[0]] + s[1..];
      InsertBehindHead(s, b, rest);
      [s[0]] + rest
  }

  /** Keeping the head of a sorted list in front of the insertion into its tail keeps
      the list sorted, since `b` ranks below that head. */
  lemma InsertBehindHead(s: seq<Binding>, b: Binding, rest: seq<Binding>)
    requires |s| > 0 && s[0].priority > b.priority
    requires forall x :: x in rest ==> x in s[1..] || x == b
    requires SortedByPriority(s[1..]) ==> SortedByPriority(rest)
    ensures SortedByPriority(s) ==> SortedByPriority([s[0]] + rest)
  {
    if SortedByPriority(s) {
      assert SortedByPriority(s[1..]);
      var r := [s[0]] + rest;
      forall i, j | 0 <= i < j < |r|
        ensures r[i].priority >= r[j].priority
      {
        if i == 0 {
          assert r[j] in rest;
          if r[j] != b {
            var k :| 0 <= k < |s[1..]| && s[1..][k] == r[j];
            assert s[k + 1] == r[j];
          }
        } else {
          assert r[i] == rest[i - 1] && r[j] == rest[j - 1];
        }
      }
    }
  }

  /**
    `sortByPriority`: reorders a list so that priorities never increase. The source
    sorts with a comparator that never reports equality, so the order of equal
    priorities is up to the JavaScript engine; this model is an insertion sort that
    puts each element ahead of the equal-priority elements already placed.
   */
  function SortByPriority(s: seq<Binding>): (r: seq<Binding>)
    ensures |r| == |s|
    ensures multiset(r) == multiset(s)
    ensures SortedByPriority(r)
    decreases |s|
  {
    if |s| == 0 then []
    else
      assert s == s[..|s| - 1] + [s[|s| - 1]];
      InsertByPriority(SortByPriority(s[..|s| - 1]), s[|s| - 1])
  }

  /** Sorting a list with one more binding at the end inserts it into the sorted rest. */
  lemma SortAppend(s: seq<Binding>, b: Binding)
    ensures SortByPriority(s + [b]) == InsertByPriority(SortByPriority(s), b)
  {
    var l := s + [b];
    assert l[..|l| - 1] == s && l[|l| - 1] == b;
  }

  /** `r` is `s` after adding `b` to the `kind` list of `b.handlerClass`: that list gains
      exactly `b`, stays sorted, and every other (kind, class) list is untouched. */
  ghost predicate Registers(s: Storage, r: Storage, kind: Kind, b: Binding) {
    && b.handlerClass in r.TableOf(kind)
    && |Lookup(r, kind, b.handlerClass)| == |Lookup(s, kind, b.handlerClass)| + 1
    && multiset(Lookup(r, kind, b.handlerClass)) == multiset(Lookup(s, kind, b.handlerClass)) + multiset{b}
    && SortedByPriority(Lookup(r, kind, b.handlerClass))
    && (b.handlerClass !in s.TableOf(kind) ==> Lookup(r, kind, b.handlerClass) == [b])
    && (forall k :: k != kind ==> r.TableOf(k) == s.TableOf(k))
    && (forall c :: c != b.handlerClass ==> (c in r.TableOf(kind) <==> c in s.TableOf(kind)))
    && (forall k, c :: (k != kind || c != b.handlerClass) ==> Lookup(r, k, c) == Lookup(s, k, c))
  }

  /** `addSubscriber(kind, HandlerClass, options, SubscriberClass, propertyKey)`. */
  function AddSubscriber(s: Storage, kind: Kind, handlerClass: ClassId, options: Options,
                         subscriberClass: ClassId, methodName: string): (r: Storage)
    ensures Registers(s, r, kind, Binding(handlerClass, subscriberClass, methodName,
                                          if options.priority.Some? then options.priority.value else 0))
  {
    var t := s.TableOf(kind);
    var list := if handlerClass in t then t[handlerClass] else [];
    var b := Binding(handlerClass, subscriberClass, methodName, PriorityOf(options));
    var sorted := SortByPriority(list + [b]);
    assert list == Lookup(s, kind, handlerClass);
    assert handlerClass !in t ==> sorted == [b] by {
      if handlerClass !in t {
        assert multiset(sorted) == multiset{b};
        assert sorted[0] in multiset(sorted);
      }
    }
    StoreRegisters(s, kind, b, sorted);
    s.WithTable(kind, t[handlerClass := sorted])
  }

  /** Storing a sorted list that is the old list plus `b` registers `b`. */
  lemma StoreRegisters(s: Storage, kind: Kind, b: Binding, sorted: seq<Binding>)
    requires multiset(sorted) == multiset(Lookup(s, kind, b.handlerClass)) + multiset{b}
    requires SortedByPriority(sorted)
    requires b.handlerClass !in s.TableOf(kind) ==> sorted == [b]
    ensures Registers(s, s.WithTable(kind, s.TableOf(kind)[b.handlerClass := sorted]), kind, b)
  {
    var r := s.WithTable(kind, s.TableOf(kind)[b.handlerClass := sorted]);
    assert Lookup(r, kind, b.handlerClass) == sorted;
    assert |sorted| == |multiset(sorted)|;
    forall k, c | k != kind || c != b.handlerClass
      ensures Lookup(r, k, c) == Lookup(s, k, c)
    {
    }
  }

  /** The `@Use(M, options)` decorator applied to property `propertyKey` of class
      `target`: only `handle` is accepted; the middleware `M.use` is registered under
      the decorated class itself. */
  function Use(s: Storage, middlewareClass: ClassId, options: Options,
               target: ClassId, propertyKey: string): (r: Result<Storage, Error>)
    ensures r.Err? <==> propertyKey != "handle"
    ensures r.Err? ==> r.error == UseOnlyOnCommands
    ensures r.Ok? ==> Registers(s, r.value, Middleware,
                                Binding(target, middlewareClass, "use", PriorityOf(options)))
  {
    if propertyKey != "handle" then Err(UseOnlyOnCommands)
    else Ok(AddSubscriber(s, Middleware, target, options, middlewareClass, "use"))
  }

  /** The `@BeforeCommand(C, options)` decorator applied to `propertyKey` of `target`:
      the decorated method observes command class `C` before its handler runs. */
  function BeforeCommand(s: Storage, commandClass: ClassId, options: Options,
                         target: ClassId, propertyKey: string): (r: Storage)
    ensures Registers(s, r, Before, Binding(commandClass, target, propertyKey, PriorityOf(options)))
  {
    AddSubscriber(s, Before, commandClass, options, target, propertyKey)
  }

  /** The `@AfterCommand(C, options)` decorator applied to `propertyKey` of `target`:
      the decorated method observes command class `C` after its handler returns. */
  function AfterCommand(s: Storage, commandClass: ClassId, options: Options,
                        target: ClassId, propertyKey: string): (r: Storage)
    ensures Registers(s, r, After, Binding(commandClass, target, propertyKey, PriorityOf(options)))
  {
    AddSubscriber(s, After, commandClass, options, target, propertyKey)
  }

  /** The priorities of a list, in list order: all that decides which hooks run first. */
  function Priorities(s: seq<Binding>): seq<int> {
    seq(|s|, i requires 0 <= i < |s| => s[i].priority)
  }

  ghost predicate NonIncreasing(p: seq<int>) {
    forall i, j :: 0 <= i < j < |p| ==> p[i] >= p[j]
  }

  /** The head of a non-increasing sequence is its largest element. */
  lemma HeadIsLargest(a: seq<int>, x: int)
    requires NonIncreasing(a) && x in multiset(a)
    ensures a[0] >= x
  {
    var i :| 0 <= i < |a| && a[i] == x;
    assert i == 0 || a[0] >= a[i];
  }

  /** Two non-increasing sequences with the same elements start alike, and what is left
      after their heads again has the same elements. */
  lemma SameHeadSameRest(a: seq<int>, b: seq<int>)
    requires NonIncreasing(a) && NonIncreasing(b)
    requires multiset(a) == multiset(b) && |a| > 0
    ensures |b| > 0 && a[0] == b[0]
    ensures NonIncreasing(a[1..]) && NonIncreasing(b[1..])
    ensures multiset(a[1..]) == multiset(b[1..])
  {
    assert |b| == |multiset(b)| == |multiset(a)| == |a|;
    HeadIsLargest(a, b[0]);
    HeadIsLargest(b, a[0]);
    assert a == [a[0]] + a[1..];
    assert b == [b[0]] + b[1..];
    assert multiset(a[1..]) == multiset(a) - multiset{a[0]};
    assert multiset(b[1..]) == multiset(b) - multiset{b[0]};
  }

  lemma ConsEqual(a: seq<int>, b: seq<int>)
    requires |a| > 0 && |b| > 0 && a[0] == b[0] && a[1..] == b[1..]
    ensures a == b
  {
    assert a == [a[0]] + a[1..] && b == [b[0]] + b[1..];
  }

  /** Two non-increasing integer sequences with the same elements are equal. */
  lemma {:induction false} NonIncreasingUnique(a: seq<int>, b: seq<int>)
    requires NonIncreasing(a) && NonIncreasing(b)
    requires multiset(a) == multiset(b)
    ensures a == b
    decreases |a|
  {
    if |a| == 0 {
      assert |b| == |multiset(b)| == 0;
    } else {
      SameHeadSameRest(a, b);
      NonIncreasingUnique(a[1..], b[1..]);
      ConsEqual(a, b);
    }
  }

  /** Priorities distribute over concatenation. */
  lemma PrioritiesConcat(u: seq<Binding>, v: seq<Binding>)
    ensures Priorities(u + v) == Priorities(u) + Priorities(v)
  {
  }

  /** Moving one binding from the front to between `u` and `v` keeps the multiset of
      priorities. */
  lemma MovePivotPriority(u: seq<Binding>, x: Binding, v: seq<Binding>, rest: seq<Binding>)
    requires multiset(Priorities(rest)) == multiset(Priorities(u + v))
    ensures multiset(Priorities([x] + rest)) == multiset(Priorities(u + [x] + v))
  {
    PrioritiesConcat([x], rest);
    PrioritiesConcat(u + [x], v);
    PrioritiesConcat(u, [x]);
    PrioritiesConcat(u, v);
    var pu, pv := Priorities(u), Priorities(v);
    assert Priorities([x]) == [x.priority];
    assert multiset(pu + [x.priority] + pv) == multiset(pu) + multiset{x.priority} + multiset(pv);
    assert multiset(pu + pv) == multiset(pu) + multiset(pv);
  }

  /** The head of `a` occurs somewhere in its permutation `b`; around it lie the rest
      of `a`, permuted. */
  lemma SplitAround(a: seq<Binding>, b: seq<Binding>) returns (u: seq<Binding>, v: seq<Binding>)
    requires |a| > 0 && multiset(a) == multiset(b)
    ensures b == u + [a[0]] + v
    ensures multiset(a[1..]) == multiset(u + v)
  {
    var x := a[0];
    assert x in multiset(b);
    var j :| 0 <= j < |b| && b[j] == x;
    u, v := b[..j], b[j + 1..];
    assert b == u + [x] + v;
    assert a == [x] + a[1..];
    assert multiset(a[1..]) == multiset(a) - multiset{x};
    assert multiset(u + v) == multiset(b) - multiset{x};
  }

  /** Lists that are permutations of each other carry the same priorities. */
  lemma {:induction false} PermutationKeepsPriorities(a: seq<Binding>, b: seq<Binding>)
    requires multiset(a) == multiset(b)
    ensures multiset(Priorities(a)) == multiset(Priorities(b))
    decreases |a|
  {
    assert |a| == |multiset(a)| == |multiset(b)| == |b|;
    if |a| > 0 {
      var x := a[0];
      var u, v := SplitAround(a, b);
      PermutationKeepsPriorities(a[1..], u + v);
      MovePivotPriority(u, x, v, a[1..]);
      assert a == [x] + a[1..];
    } else {
      assert a == [] && b == [];
    }
  }

  /** Whatever order an engine gives equal priorities, any two sorted arrangements of
      the same bindings run the same sequence of priorities: the tie rule can reorder
      only bindings of equal priority. */
  lemma SortedArrangementsAgree(a: seq<Binding>, b: seq<Binding>)
    requires SortedByPriority(a) && SortedByPriority(b)
    requires multiset(a) == multiset(b)
    ensures Priorities(a) == Priorities(b)
  {
    PermutationKeepsPriorities(a, b);
    NonIncreasingUnique(Priorities(a), Priorities(b));
  }
}

=== FILE: metadata.dfy ===
/**
  The hook registry of `MetadataStorage`: three tables, `middleware`, `before` and
  `after`, each mapping a command class to its ordered list of subscriber bindings.
  The process-wide slot the storage lives in is an explicit `Option<Storage>` here.
 */
module Metadata {
  import opened Results

  /** A class, compared by identity (a constructor reference in the source). */
  type ClassId = nat

  /** The three hook kinds, one table each. */
  datatype Kind = Middleware | Before | After

  /** One `SubscriberMetadata` record: which method of which subscriber class observes
      which command class, and at what priority. */
  datatype Binding = Binding(handlerClass: ClassId, subscriberClass: ClassId, methodName: string, priority: int)

  type Table = map<ClassId, seq<Binding>>

  /** `metadata.subscribers`: one table per kind. */
  datatype Storage = Storage(middleware: Table, before: Table, after: Table) {

    /** `subscribers[kind]` */
    function TableOf(kind: Kind): Table {
      match kind
      case Middleware => middleware
      case Before => before
      case After => after
    }

    /** The storage with the table of `kind` replaced and the other two kept. */
    function WithTable(kind: Kind, t: Table): (r: Storage)
      ensures r.TableOf(kind) == t
      ensures forall k :: k != kind ==> r.TableOf(k) == TableOf(k)
    {
      match kind
      case Middleware => this.(middleware := t)
      case Before => this.(before := t)
      case After => this.(after := t)
    }
  }

  /** The storage a fresh `MetadataStorage` holds: three empty maps. */
  function NewStorage(): (s: Storage)
    ensures forall k :: s.TableOf(k) == map[]
  {
    Storage(map[], map[], map[])
  }

  /** The bindings of `kind` for command class `c`, in stored order; an absent entry
      reads as no bindings, which is how `emit` treats it. */
  function Lookup(s: Storage, kind: Kind, c: ClassId): seq<Binding> {
    if c in s.TableOf(kind) then s.TableOf(kind)[c] else []
  }

  /** `clear()`: empties the three tables, whatever they held. */
  function Clear(s: Storage): (r: Storage)
    ensures forall k :: r.TableOf(k) == map[]
    ensures forall k, c :: Lookup(r, k, c) == []
  {
    Storage(map[], map[], map[])
  }

  /** `getInstance()`: the storage in the slot, creating (and storing) a fresh one only
      when the slot is empty. Returns the storage and the slot afterwards. */
  function GetInstance(slot: Option<Storage>): (r: (Storage, Option<Storage>))
    ensures r.1 == Some(r.0)
    ensures slot.Some? ==> r.0 == slot.value
    ensures slot.None? ==> forall k, c :: Lookup(r.0, k, c) == []
  {
    match slot
    case Some(s) => (s, slot)
    case None => var s := NewStorage(); (s, Some(s))
  }

  /** `clear()` twice leaves the same state as `clear()` once. */
  lemma ClearIdempotent(s: Storage)
    ensures Clear(Clear(s)) == Clear(s)
  {
  }

  /** Once the slot is filled, every later `getInstance()` returns that same storage
      and leaves the slot as it is. */
  lemma GetInstanceStable(slot: Option<Storage>)
    ensures GetInstance(GetInstance(slot).1) == GetInstance(slot)
  {
  }
}

=== FILE: results.dfy ===
/** Failure-carrying values shared by the registry, the container and the runner. */
module Results {

  /** A value that may be absent (`undefined`, or a falsy value, in the source). */
  datatype Option<+T> = None | Some(value: T)

  /** The settled state of an awaited call: fulfilled with a value or rejected with an error. */
  datatype Result<+T, +E> = Ok(value: T) | Err(error: E)

  /** Every error the dispatch core raises or passes through. */
  datatype Error =
    | InvalidHandler                  // the container gave no handler for the command class
    | UseOnlyOnCommands               // `@Use` put on a method other than `handle`
    | NoSubscriberInstance(cls: nat)  // the container gave no instance for a subscriber class
    | Thrown(reason: nat)             // anything a hook or a handler throws

  /** The message of an error the source raises itself: `InvalidHandler` and
      `UseOnlyOnCommands` only. */
  function Message(e: Error): Option<string> {
    match e
    case InvalidHandler => Some("Invalid handler")
    case UseOnlyOnCommands => Some("@Use() can only be used on Commands.")
    case _ => None
  }
}

=== FILE: runner.dfy ===
/**
  `CommandRunner`: resolves a command's handler through the container, runs the
  middleware and before hooks with the event, calls `handle` once, runs the after hooks
  with the result, and returns that result. Every hook and handler call is awaited
  before the next one starts, so a run is a sequence of calls; what each call settles
  to is given by an oracle, and a run is a function of the registry, the container and
  that oracle.
 */
module Runner {
  import opened Results
  import opened Metadata
  import opened Containers

  /** A JavaScript value, as an opaque token. */
  type Value = int

  /** Which step of a run made a call. */
  datatype Phase = Hook(kind: Kind) | Handle

  /** One awaited call: `target[methodName](arg, runner)` for a hook, `target.handle(arg)`
      for the handler. */
  datatype Call = Call(phase: Phase, target: Instance, methodName: string, arg: Value)

  /** What each call settles to. A middleware or before hook settles to the event as it
      leaves it (by-reference mutation is how the source passes changes on); the handler
      settles to its result; the value an after hook settles to is not used. */
  type Oracle = Call -> Result<Value, Error>

  /** The calls made, how the run or hook chain ended, and the container afterwards. */
  datatype Step = Step(trace: seq<Call>, outcome: Result<Value, Error>, resolver: Resolver)

  /** Position of a phase in a run: middleware, before, handle, after. */
  function Rank(p: Phase): nat {
    match p
    case Hook(Middleware) => 0
    case Hook(Before) => 1
    case Handle => 2
    case Hook(After) => 3
  }

  function Last(trace: seq<Call>): Call
    requires |trace| > 0
  {
    trace[|trace| - 1]
  }

  /** The `i`th call invokes the `i`th stored binding, for a prefix of the bindings. */
  ghost predicate FollowsBindings(trace: seq<Call>, bs: seq<Binding>, kind: Kind) {
    && |trace| <= |bs|
    && forall i :: 0 <= i < |trace| ==> trace[i].phase == Hook(kind) && trace[i].methodName == bs[i].methodName
  }

  /** The `i`th call goes to an instance of the `i`th binding's subscriber class. */
  ghost predicate TargetsSubscribers(trace: seq<Call>, bs: seq<Binding>) {
    forall i :: 0 <= i < |trace| && i < |bs| ==> trace[i].target.cls == bs[i].subscriberClass
  }

  /** The `i`th call goes to the instance `d` caches for the `i`th binding's subscriber
      class: the one instance per class that `DefaultContainer` hands out. */
  ghost predicate TargetsCached(trace: seq<Call>, bs: seq<Binding>, d: DefaultContainer) {
    forall i :: 0 <= i < |trace| && i < |bs| ==>
      bs[i].subscriberClass in d.instances && trace[i].target == d.instances[bs[i].subscriberClass]
  }

  /** No call is made after one that failed. */
  ghost predicate NoCallAfterFailure(trace: seq<Call>, oracle: Oracle) {
    forall i :: 0 <= i < |trace| - 1 ==> oracle(trace[i]).Ok?
  }

  /** A failing last call is what the outcome reports, unchanged. */
  ghost predicate FailurePropagates(trace: seq<Call>, outcome: Result<Value, Error>, oracle: Oracle) {
    |trace| > 0 && oracle(Last(trace)).Err? ==> outcome == oracle(Last(trace))
  }

  /** Hook chain arguments: an after hook gets `arg` itself; a middleware or before hook
      gets `arg` if it is first and otherwise the event the previous hook left. */
  ghost predicate Threaded(trace: seq<Call>, kind: Kind, arg: Value, oracle: Oracle) {
    if kind == After then
      forall i :: 0 <= i < |trace| ==> trace[i].arg == arg
    else
      && (|trace| > 0 ==> trace[0].arg == arg)
      && forall i :: 0 <= i < |trace| - 1 ==> oracle(trace[i]) == Ok(trace[i + 1].arg)
  }

  /** `s` with `calls` made before it. */
  function Prepend(calls: seq<Call>, s: Step): Step {
    Step(calls + s.trace, s.outcome, s.resolver)
  }

  lemma PrependTwice(a: seq<Call>, b: seq<Call>, s: Step)
    ensures Prepend(a, Prepend(b, s)) == Prepend(a + b, s)
  {
    assert a + (b + s.trace) == (a + b) + s.trace;
  }

  /**
    `emit(kind, HandlerClass, arg)` over the stored list `bs`: for each binding in order,
    get the subscriber instance from the container and await
    `instance[method](arg, runner)`; the first failure ends the chain and is the outcome.
    On success the outcome carries the event as the last middleware or before hook left
    it (for after hooks, `arg` unchanged).
   */
  function EmitHooks(bs: seq<Binding>, kind: Kind, arg: Value, res: Resolver, oracle: Oracle): Step
    decreases |bs|
  {
    if |bs| == 0 then
      Step([], Ok(arg), res)
    else
      var (instance, res1) := Resolve(res, bs[0].subscriberClass);
      if instance.None? then
        Step([], Err(NoSubscriberInstance(bs[0].subscriberClass)), res1)
      else
        var call := Call(Hook(kind), instance.value, bs[0].methodName, arg);
        match oracle(call)
        case Err(e) => Step([call], Err(e), res1)
        case Ok(v) => Prepend([call], EmitHooks(bs[1..], kind, if kind == After then arg else v, res1, oracle))
  }

  /** Which calls a hook chain makes: a prefix of the stored bindings, in order, each to
      an instance of the binding's subscriber class when the container is the default
      one. */
  lemma {:induction false} EmitShape(bs: seq<Binding>, kind: Kind, arg: Value, res: Resolver, oracle: Oracle)
    ensures var r := EmitHooks(bs, kind, arg, res, oracle);
      && FollowsBindings(r.trace, bs, kind)
      && AllIn(r.trace, Hook(kind))
      && (ValidResolver(res) && res.Default? ==> TargetsSubscribers(r.trace, bs))
    decreases |bs|
  {
    if |bs| > 0 {
      var (instance, res1) := Resolve(res, bs[0].subscriberClass);
      ResolveContract(res, bs[0].subscriberClass);
      if instance.Some? {
        var call := Call(Hook(kind), instance.value, bs[0].methodName, arg);
        if oracle(call).Ok? {
          var next := if kind == After then arg else oracle(call).value;
          EmitShape(bs[1..], kind, next, res1, oracle);
          PrependShape(call, EmitHooks(bs[1..], kind, next, res1, oracle).trace, bs, kind);
        }
      }
    }
  }

  /** The shape facts carry over from the rest of the chain to the whole chain. */
  lemma PrependShape(call: Call, rest: seq<Call>, bs: seq<Binding>, kind: Kind)
    requires |bs| > 0 && call.phase == Hook(kind) && call.methodName == bs[0].methodName
    requires FollowsBindings(rest, bs[1..], kind) && AllIn(rest, Hook(kind))
    ensures FollowsBindings([call] + rest, bs, kind) && AllIn([call] + rest, Hook(kind))
    ensures call.target.cls == bs[0].subscriberClass && TargetsSubscribers(rest, bs[1..]) ==>
              TargetsSubscribers([call] + rest, bs)
  {
    var t := [call] + rest;
    assert forall i :: 0 < i < |t| ==> t[i] == rest[i - 1];
  }

  /** A hook chain only adds to the container and keeps it consistent. */
  lemma {:induction false} EmitContainer(bs: seq<Binding>, kind: Kind, arg: Value, res: Resolver, oracle: Oracle)
    ensures var r := EmitHooks(bs, kind, arg, res, oracle);
      ResolverGrows(res, r.resolver) && (ValidResolver(res) ==> ValidResolver(r.resolver))
    decreases |bs|
  {
    if |bs| > 0 {
      var (instance, res1) := Resolve(res, bs[0].subscriberClass);
      ResolveContract(res, bs[0].subscriberClass);
      if instance.Some? {
        var call := Call(Hook(kind), instance.value, bs[0].methodName, arg);
        if oracle(call).Ok? {
          var next := if kind == After then arg else oracle(call).value;
          EmitContainer(bs[1..], kind, next, res1, oracle);
          ResolverGrowsTransitive(res, res1, EmitHooks(bs[1..], kind, next, res1, oracle).resolver);
        }
      }
    }
  }

  /** On the default container, every hook call goes to the instance the container
      caches for the binding's subscriber class, and that class stays cached. */
  lemma {:induction false} EmitTargetsCached(bs: seq<Binding>, kind: Kind, arg: Value, res: Resolver, oracle: Oracle)
    ensures var r := EmitHooks(bs, kind, arg, res, oracle);
      res.Default? ==> r.resolver.Default? && TargetsCached(r.trace, bs, r.resolver.container)
    decreases |bs|
  {
    if |bs| > 0 && res.Default? {
      var c := bs[0].subscriberClass;
      var (instance, res1) := Resolve(res, c);
      GetContract(res.container, c);
      var call := Call(Hook(kind), instance.value, bs[0].methodName, arg);
      if oracle(call).Ok? {
        var next := if kind == After then arg else oracle(call).value;
        var rest := EmitHooks(bs[1..], kind, next, res1, oracle);
        EmitTargetsCached(bs[1..], kind, next, res1, oracle);
        EmitContainer(bs[1..], kind, next, res1, oracle);
        PrependCached(call, rest.trace, bs, rest.resolver.container);
      }
    }
  }

  lemma PrependCached(call: Call, rest: seq<Call>, bs: seq<Binding>, d: DefaultContainer)
    requires |bs| > 0 && bs[0].subscriberClass in d.instances
    requires call.target == d.instances[bs[0].subscriberClass]
    requires TargetsCached(rest, bs[1..], d)
    ensures TargetsCached([call] + rest, bs, d)
  {
    var t := [call] + rest;
    assert forall i :: 0 < i < |t| ==> t[i] == rest[i - 1];
  }

  /** Calls that went to cached instances still do once the container has grown. */
  lemma CachedTargetsGrow(trace: seq<Call>, bs: seq<Binding>, d: DefaultContainer, e: DefaultContainer)
    requires TargetsCached(trace, bs, d) && Grows(d, e)
    ensures TargetsCached(trace, bs, e)
  {
  }

  /** How values move along a hook chain and how it ends: each middleware or before hook
      gets the event as the previous one left it, each after hook the same value; the
      chain stops at the first failure and reports it unchanged; an error no call raised
      is a falsy subscriber, which only a non-default container gives; on success every
      binding was called and the outcome is the event as the chain left it. */
  lemma {:induction false} EmitFlow(bs: seq<Binding>, kind: Kind, arg: Value, res: Resolver, oracle: Oracle)
    ensures var r := EmitHooks(bs, kind, arg, res, oracle);
      && Threaded(r.trace, kind, arg, oracle)
      && NoCallAfterFailure(r.trace, oracle)
      && FailurePropagates(r.trace, r.outcome, oracle)
      && (r.outcome.Ok? ==> |r.trace| == |bs| && (|r.trace| > 0 ==> oracle(Last(r.trace)).Ok?))
      && (r.outcome.Ok? && (kind == After || |r.trace| == 0) ==> r.outcome.value == arg)
      && (r.outcome.Ok? && kind != After && |r.trace| > 0 ==> oracle(Last(r.trace)) == r.outcome)
      && (r.outcome.Err? && (|r.trace| == 0 || oracle(Last(r.trace)).Ok?) ==>
            res.External? && |r.trace| < |bs| && r.outcome.error == NoSubscriberInstance(bs[|r.trace|].subscriberClass))
    decreases |bs|
  {
    if |bs| > 0 {
      var (instance, res1) := Resolve(res, bs[0].subscriberClass);
      if instance.Some? {
        var call := Call(Hook(kind), instance.value, bs[0].methodName, arg);
        if oracle(call).Ok? {
          var v := oracle(call).value;
          var next := if kind == After then arg else v;
          EmitFlow(bs[1..], kind, next, res1, oracle);
          var rest := EmitHooks(bs[1..], kind, next, res1, oracle);
          PrependFlow(call, rest.trace, kind, arg, v, rest.outcome, oracle);
        }
      }
    }
  }

  /** The flow facts carry over from the rest of the chain to the whole chain when its
      first call succeeded. */
  lemma PrependFlow(call: Call, rest: seq<Call>, kind: Kind, arg: Value, v: Value,
                    outcome: Result<Value, Error>, oracle: Oracle)
    requires call.arg == arg && oracle(call) == Ok(v)
    requires Threaded(rest, kind, if kind == After then arg else v, oracle)
    requires NoCallAfterFailure(rest, oracle)
    requires FailurePropagates(rest, outcome, oracle)
    ensures Threaded([call] + rest, kind, arg, oracle)
    ensures NoCallAfterFailure([call] + rest, oracle)
    ensures FailurePropagates([call] + rest, outcome, oracle)
    ensures |rest| > 0 ==> Last([call] + rest) == Last(rest)
  {
    var t := [call] + rest;
    assert forall i :: 0 < i < |t| ==> t[i] == rest[i - 1];
    if kind != After {
      forall i | 0 <= i < |t| - 1
        ensures oracle(t[i]) == Ok(t[i + 1].arg)
      {
        if i > 0 {
          assert t[i] == rest[i - 1] && t[i + 1] == rest[i];
        }
      }
    }
  }

  /** How a hook chain ends, in the terms a run needs: a failing last call is the
      outcome, an error no call raised comes from a non-default container, success means
      every binding was called, and a default container stays the default one. */
  lemma EmitEnd(bs: seq<Binding>, kind: Kind, arg: Value, res: Resolver, oracle: Oracle)
    ensures var r := EmitHooks(bs, kind, arg, res, oracle);
      && FailurePropagates(r.trace, r.outcome, oracle)
      && (r.outcome.Ok? ==> |r.trace| == |bs| && (|r.trace| > 0 ==> oracle(Last(r.trace)).Ok?))
      && (r.outcome.Err? && (|r.trace| == 0 || oracle(Last(r.trace)).Ok?) ==>
            res.External? && r.outcome.error.NoSubscriberInstance?)
      && (res.Default? ==> r.resolver.Default?)
  {
    EmitFlow(bs, kind, arg, res, oracle);
    EmitContainer(bs, kind, arg, res, oracle);
  }

  /** One step of the hook chain. */
  lemma EmitUnfold(bs: seq<Binding>, kind: Kind, arg: Value, res: Resolver, oracle: Oracle)
    requires |bs| > 0
    ensures EmitHooks(bs, kind, arg, res, oracle) ==
            var (instance, res1) := Resolve(res, bs[0].subscriberClass);
            if instance.None? then Step([], Err(NoSubscriberInstance(bs[0].subscriberClass)), res1)
            else
              var call := Call(Hook(kind), instance.value, bs[0].methodName, arg);
              if oracle(call).Err? then Step([call], oracle(call), res1)
              else
                Prepend([call], EmitHooks(bs[1..], kind, if kind == After then arg else oracle(call).value, res1, oracle))
  {
  }

  /** `emit` as the source writes it, a `for ... of` loop awaiting one hook at a time;
      it makes the same calls, ends the same way and leaves the same container as the
      chain `EmitHooks` defines. */
  method Emit(bs: seq<Binding>, kind: Kind, arg: Value, res: Resolver, oracle: Oracle) returns (r: Step)
    ensures r == EmitHooks(bs, kind, arg, res, oracle)
  {
    var trace: seq<Call> := [];
    var current := arg;
    var resolver := res;
    var i := 0;
    ghost var goal := EmitHooks(bs, kind, arg, res, oracle);
    while i < |bs|
      invariant 0 <= i <= |bs|
      invariant goal == Prepend(trace, EmitHooks(bs[i..], kind, current, resolver, oracle))
    {
      ghost var here := EmitHooks(bs[i..], kind, current, resolver, oracle);
      EmitUnfold(bs[i..], kind, current, resolver, oracle);
      assert bs[i..][1..] == bs[i + 1..];
      var (instance, resolver') := Resolve(resolver, bs[i].subscriberClass);
      if instance.None? {
        return Step(trace, Err(NoSubscriberInstance(bs[i].subscriberClass)), resolver');
      }
      var call := Call(Hook(kind), instance.value, bs[i].methodName, current);
      var settled := oracle(call);
      if settled.Err? {
        return Step(trace + [call], settled, resolver');
      }
      ghost var tail := EmitHooks(bs[i + 1..], kind, if kind == After then current else settled.value, resolver', oracle);
      assert here == Prepend([call], tail);
      PrependTwice(trace, [call], tail);
      trace := trace + [call];
      if kind != After {
        current := settled.value;
      }
      resolver := resolver';
      i := i + 1;
    }
    assert bs[i..] == [];
    return Step(trace, Ok(current), resolver);
  }

  /** Every call of `seg` was made in phase `p`. */
  ghost predicate AllIn(seg: seq<Call>, p: Phase) {
    forall i :: 0 <= i < |seg| ==> seg[i].phase == p
  }

  /** Middleware calls, then before calls, then the handler, then after calls. */
  ghost predicate PhaseOrdered(trace: seq<Call>) {
    forall i, j :: 0 <= i < j < |trace| ==> Rank(trace[i].phase) <= Rank(trace[j].phase)
  }

  /** Each call that is not an after hook gets the value the call before it settled to. */
  ghost predicate Chained(trace: seq<Call>, oracle: Oracle) {
    forall i :: 0 <= i < |trace| - 1 && trace[i + 1].phase != Hook(After) ==>
      oracle(trace[i]) == Ok(trace[i + 1].arg)
  }

  /** A run made of a middleware, a before, a handler and an after segment keeps the
      phase order. */
  lemma SegmentsOrdered(m: seq<Call>, b: seq<Call>, h: seq<Call>, a: seq<Call>)
    requires AllIn(m, Hook(Middleware)) && AllIn(b, Hook(Before)) && AllIn(h, Handle) && AllIn(a, Hook(After))
    ensures PhaseOrdered(m + b + h + a)
  {
    var t := m + b + h + a;
    forall i | 0 <= i < |t|
      ensures Rank(t[i].phase) == if i < |m| then 0 else if i < |m| + |b| then 1 else if i < |m| + |b| + |h| then 2 else 3
    {
      if i < |m| { assert t[i] == m[i]; }
      else if i < |m| + |b| { assert t[i] == b[i - |m|]; }
      else if i < |m| + |b| + |h| { assert t[i] == h[i - |m| - |b|]; }
      else { assert t[i] == a[i - |m| - |b| - |h|]; }
    }
  }

  /** `Chained` and `NoCallAfterFailure` of two traces carry over to their concatenation
      when the first one's last call succeeded with what the second one starts on. */
  lemma JoinTraces(x: seq<Call>, y: seq<Call>, oracle: Oracle)
    requires Chained(x, oracle) && Chained(y, oracle)
    requires NoCallAfterFailure(x, oracle) && NoCallAfterFailure(y, oracle)
    requires |x| > 0 && |y| > 0 ==> oracle(Last(x)).Ok?
    requires |x| > 0 && |y| > 0 && y[0].phase != Hook(After) ==> oracle(Last(x)) == Ok(y[0].arg)
    ensures Chained(x + y, oracle) && NoCallAfterFailure(x + y, oracle)
    ensures |x + y| > 0 ==> Last(x + y) == if |y| > 0 then Last(y) else Last(x)
  {
    var t := x + y;
    forall i | 0 <= i < |t| - 1
      ensures oracle(t[i]).Ok?
      ensures t[i + 1].phase != Hook(After) ==> oracle(t[i]) == Ok(t[i + 1].arg)
    {
      if i + 1 < |x| {
        assert t[i] == x[i] && t[i + 1] == x[i + 1];
      } else if i + 1 == |x| {
        assert t[i] == Last(x) && t[i + 1] == y[0];
      } else {
        assert t[i] == y[i - |x|] && t[i + 1] == y[i - |x| + 1];
      }
    }
  }

  /** A middleware or before chain's `Threaded` is `Chained` starting from `arg`. */
  lemma ThreadedChained(trace: seq<Call>, kind: Kind, arg: Value, oracle: Oracle)
    requires Threaded(trace, kind, arg, oracle) && kind != After
    ensures Chained(trace, oracle)
    ensures |trace| > 0 ==> trace[0].arg == arg
  {
  }

  /** The calls of a run, split by phase; `Calls()` is the order they were made in. */
  datatype Segments = Segments(middleware: seq<Call>, before: seq<Call>, handle: seq<Call>, after: seq<Call>) {
    function Calls(): seq<Call> {
      middleware + before + handle + after
    }
  }

  /** What a run did: its calls, how it ended, and the container afterwards. */
  datatype RunResult = RunResult(segments: Segments, outcome: Result<Value, Error>, resolver: Resolver)

  /**
    `run(Command, event)`: get the handler from the container and fail with
    `Invalid handler` if that gives a falsy value; then the middleware hooks and the
    before hooks with the event, one `handle(event)` call, the after hooks with its
    result; the result of `handle` is what the run returns. The first failure ends the
    run and is its outcome.
   */
  function Run(st: Storage, res: Resolver, oracle: Oracle, cmd: ClassId, event: Value): RunResult {
    var (handler, res1) := Resolve(res, cmd);
    if handler.None? then
      RunResult(Segments([], [], [], []), Err(InvalidHandler), res1)
    else
      var mw := EmitHooks(Lookup(st, Middleware, cmd), Middleware, event, res1, oracle);
      if mw.outcome.Err? then
        RunResult(Segments(mw.trace, [], [], []), mw.outcome, mw.resolver)
      else
        var bf := EmitHooks(Lookup(st, Before, cmd), Before, mw.outcome.value, mw.resolver, oracle);
        if bf.outcome.Err? then
          RunResult(Segments(mw.trace, bf.trace, [], []), bf.outcome, bf.resolver)
        else
          var call := Call(Handle, handler.value, "handle", bf.outcome.value);
          match oracle(call)
          case Err(e) => RunResult(Segments(mw.trace, bf.trace, [call], []), Err(e), bf.resolver)
          case Ok(result) =>
            var af := EmitHooks(Lookup(st, After, cmd), After, result, bf.resolver, oracle);
            RunResult(Segments(mw.trace, bf.trace, [call], af.trace),
                      if af.outcome.Err? then af.outcome else Ok(result), af.resolver)
  }

  /** An error that no call raised comes from the container: a falsy handler, or a falsy
      subscriber instance, which only a non-default container can give. */
  ghost predicate UncalledErrorsFromContainer(trace: seq<Call>, outcome: Result<Value, Error>, res: Resolver, oracle: Oracle) {
    outcome.Err? && (|trace| == 0 || oracle(Last(trace)).Ok?) ==>
      res.External? && (outcome.error == InvalidHandler || outcome.error.NoSubscriberInstance?)
  }

  /** The shape of a run: a falsy handler fails it with `Invalid handler` before any
      call; otherwise each hook segment calls a prefix of the stored list for its kind,
      in stored order; at most one `handle` call, on the resolved handler; and the
      phases come in the fixed order. */
  lemma RunShape(st: Storage, res: Resolver, oracle: Oracle, cmd: ClassId, event: Value)
    ensures var r := Run(st, res, oracle, cmd, event); var g := r.segments;
      && (Resolve(res, cmd).0.None? ==> g.Calls() == [] && r.outcome == Err(InvalidHandler))
      && FollowsBindings(g.middleware, Lookup(st, Middleware, cmd), Middleware)
      && FollowsBindings(g.before, Lookup(st, Before, cmd), Before)
      && FollowsBindings(g.after, Lookup(st, After, cmd), After)
      && |g.handle| <= 1
      && (|g.handle| == 1 ==>
            && g.handle[0].phase == Handle && g.handle[0].methodName == "handle"
            && Resolve(res, cmd).0 == Some(g.handle[0].target))
      && PhaseOrdered(g.Calls())
  {
    var r := Run(st, res, oracle, cmd, event);
    var g := r.segments;
    var (handler, res1) := Resolve(res, cmd);
    if handler.Some? {
      var mw := EmitHooks(Lookup(st, Middleware, cmd), Middleware, event, res1, oracle);
      EmitShape(Lookup(st, Middleware, cmd), Middleware, event, res1, oracle);
      if mw.outcome.Ok? {
        var bf := EmitHooks(Lookup(st, Before, cmd), Before, mw.outcome.value, mw.resolver, oracle);
        EmitShape(Lookup(st, Before, cmd), Before, mw.outcome.value, mw.resolver, oracle);
        if bf.outcome.Ok? {
          var call := Call(Handle, handler.value, "handle", bf.outcome.value);
          if oracle(call).Ok? {
            EmitShape(Lookup(st, After, cmd), After, oracle(call).value, bf.resolver, oracle);
          }
        }
      }
    }
    SegmentsOrdered(g.middleware, g.before, g.handle, g.after);
  }

  /** `handle` is reached only once every stored middleware and before hook was called,
      and the before hooks only once every middleware hook was. */
  lemma HandleAfterAllHooks(st: Storage, res: Resolver, oracle: Oracle, cmd: ClassId, event: Value)
    ensures var g := Run(st, res, oracle, cmd, event).segments;
      && (|g.before| > 0 ==> |g.middleware| == |Lookup(st, Middleware, cmd)|)
      && (|g.handle| > 0 ==>
            |g.middleware| == |Lookup(st, Middleware, cmd)| && |g.before| == |Lookup(st, Before, cmd)|)
  {
    var (handler, res1) := Resolve(res, cmd);
    if handler.Some? {
      var mw := EmitHooks(Lookup(st, Middleware, cmd), Middleware, event, res1, oracle);
      EmitEnd(Lookup(st, Middleware, cmd), Middleware, event, res1, oracle);
      if mw.outcome.Ok? {
        EmitEnd(Lookup(st, Before, cmd), Before, mw.outcome.value, mw.resolver, oracle);
      }
    }
  }

  /** On the default container every hook call of a run goes to the instance the
      container, as the run leaves it, caches for the hook's subscriber class: one
      instance per subscriber class, shared by all its hooks. */
  lemma RunHooksCached(st: Storage, d: DefaultContainer, oracle: Oracle, cmd: ClassId, event: Value)
    ensures var r := Run(st, Default(d), oracle, cmd, event); var g := r.segments;
      && r.resolver.Default?
      && TargetsCached(g.middleware, Lookup(st, Middleware, cmd), r.resolver.container)
      && TargetsCached(g.before, Lookup(st, Before, cmd), r.resolver.container)
      && TargetsCached(g.after, Lookup(st, After, cmd), r.resolver.container)
  {
    var r := Run(st, Default(d), oracle, cmd, event);
    var (handler, res1) := Resolve(Default(d), cmd);
    var ms := Lookup(st, Middleware, cmd);
    var mw := EmitHooks(ms, Middleware, event, res1, oracle);
    EmitTargetsCached(ms, Middleware, event, res1, oracle);
    if mw.outcome.Ok? {
      var bs := Lookup(st, Before, cmd);
      var bf := EmitHooks(bs, Before, mw.outcome.value, mw.resolver, oracle);
      EmitTargetsCached(bs, Before, mw.outcome.value, mw.resolver, oracle);
      EmitContainer(bs, Before, mw.outcome.value, mw.resolver, oracle);
      CachedTargetsGrow(mw.trace, ms, mw.resolver.container, bf.resolver.container);
      if bf.outcome.Ok? {
        var call := Call(Handle, handler.value, "handle", bf.outcome.value);
        if oracle(call).Ok? {
          var afs := Lookup(st, After, cmd);
          var af := EmitHooks(afs, After, oracle(call).value, bf.resolver, oracle);
          EmitTargetsCached(afs, After, oracle(call).value, bf.resolver, oracle);
          EmitContainer(afs, After, oracle(call).value, bf.resolver, oracle);
          CachedTargetsGrow(mw.trace, ms, bf.resolver.container, af.resolver.container);
          CachedTargetsGrow(bf.trace, bs, bf.resolver.container, af.resolver.container);
        }
      }
    }
  }

  /** On a consistent default container every call of a run goes to an instance of the
      class it was registered for: hooks to their subscriber classes, `handle` to the
      command's handler class. */
  lemma RunTargets(st: Storage, d: DefaultContainer, oracle: Oracle, cmd: ClassId, event: Value)
    requires Valid(d)
    ensures var g := Run(st, Default(d), oracle, cmd, event).segments;
      && TargetsSubscribers(g.middleware, Lookup(st, Middleware, cmd))
      && TargetsSubscribers(g.before, Lookup(st, Before, cmd))
      && TargetsSubscribers(g.after, Lookup(st, After, cmd))
      && (|g.handle| == 1 ==> g.handle[0].target.cls == cmd)
    ensures var r := Run(st, Default(d), oracle, cmd, event); var g := r.segments;
      && r.resolver.Default?
      && TargetsCached(g.middleware, Lookup(st, Middleware, cmd), r.resolver.container)
      && TargetsCached(g.before, Lookup(st, Before, cmd), r.resolver.container)
      && TargetsCached(g.after, Lookup(st, After, cmd), r.resolver.container)
  {
    RunHooksCached(st, d, oracle, cmd, event);
    var res := Default(d);
    var (handler, res1) := Resolve(res, cmd);
    ResolveContract(res, cmd);
    var mw := EmitHooks(Lookup(st, Middleware, cmd), Middleware, event, res1, oracle);
    EmitShape(Lookup(st, Middleware, cmd), Middleware, event, res1, oracle);
    EmitContainer(Lookup(st, Middleware, cmd), Middleware, event, res1, oracle);
    if mw.outcome.Ok? {
      var bf := EmitHooks(Lookup(st, Before, cmd), Before, mw.outcome.value, mw.resolver, oracle);
      EmitShape(Lookup(st, Before, cmd), Before, mw.outcome.value, mw.resolver, oracle);
      EmitContainer(Lookup(st, Before, cmd), Before, mw.outcome.value, mw.resolver, oracle);
      if bf.outcome.Ok? {
        var call := Call(Handle, handler.value, "handle", bf.outcome.value);
        if oracle(call).Ok? {
          EmitShape(Lookup(st, After, cmd), After, oracle(call).value, bf.resolver, oracle);
        }
      }
    }
  }

  /** Joining the four segments of a run keeps `Chained` and `NoCallAfterFailure` when
      each segment starts on what the one before it settled to. */
  lemma JoinSegments(m: seq<Call>, b: seq<Call>, h: seq<Call>, a: seq<Call>, event: Value, oracle: Oracle)
    requires Chained(m, oracle) && Chained(b, oracle) && AllIn(a, Hook(After))
    requires NoCallAfterFailure(m, oracle) && NoCallAfterFailure(b, oracle) && NoCallAfterFailure(a, oracle)
    requires |h| <= 1
    requires |m + b + h| > 0 ==> (m + b + h)[0].arg == event
    requires |m| > 0 && |b| > 0 ==> oracle(Last(m)) == Ok(b[0].arg)
    requires |m + b| > 0 && |h| > 0 ==> oracle(Last(m + b)) == Ok(h[0].arg)
    requires |a| > 0 ==> |h| == 1 && oracle(h[0]).Ok?
    ensures |m + b + h + a| > 0 ==> (m + b + h + a)[0].arg == event
    ensures Chained(m + b + h + a, oracle) && NoCallAfterFailure(m + b + h + a, oracle)
  {
    JoinTraces(m, b, oracle);
    JoinTraces(m + b, h, oracle);
    if |a| > 0 {
      assert Last(m + b + h) == h[0];
      assert Chained(a, oracle);
    }
    JoinTraces(m + b + h, a, oracle);
  }

  /** How values flow through a run: the first call gets the event; every middleware
      hook, before hook and the handler gets the event as the call before it left it;
      every after hook gets what `handle` returned; and no call follows a failed one. */
  lemma RunFlow(st: Storage, res: Resolver, oracle: Oracle, cmd: ClassId, event: Value)
    ensures var g := Run(st, res, oracle, cmd, event).segments;
      && (|g.Calls()| > 0 ==> g.Calls()[0].arg == event)
      && Chained(g.Calls(), oracle)
      && NoCallAfterFailure(g.Calls(), oracle)
  {
    var g := Run(st, res, oracle, cmd, event).segments;
    RunHeadSegments(st, res, oracle, cmd, event);
    RunAfterSegment(st, res, oracle, cmd, event);
    JoinSegments(g.middleware, g.before, g.handle, g.after, event, oracle);
  }

  /** The middleware, before and handle segments of a run: each hook segment is chained
      and stops at its first failure, the first call gets the event, and each segment
      starts on what the one before it settled to. */
  lemma RunHeadSegments(st: Storage, res: Resolver, oracle: Oracle, cmd: ClassId, event: Value)
    ensures var g := Run(st, res, oracle, cmd, event).segments;
      var (m, b, h) := (g.middleware, g.before, g.handle);
      && Chained(m, oracle) && Chained(b, oracle)
      && NoCallAfterFailure(m, oracle) && NoCallAfterFailure(b, oracle)
      && |h| <= 1
      && (|m + b + h| > 0 ==> (m + b + h)[0].arg == event)
      && (|m| > 0 && |b| > 0 ==> oracle(Last(m)) == Ok(b[0].arg))
      && (|m + b| > 0 && |h| > 0 ==> oracle(Last(m + b)) == Ok(h[0].arg))
  {
    var (handler, res1) := Resolve(res, cmd);
    if handler.Some? {
      var ms := Lookup(st, Middleware, cmd);
      var mw := EmitHooks(ms, Middleware, event, res1, oracle);
      EmitFlow(ms, Middleware, event, res1, oracle);
      ThreadedChained(mw.trace, Middleware, event, oracle);
      if mw.outcome.Ok? {
        var bs := Lookup(st, Before, cmd);
        var bf := EmitHooks(bs, Before, mw.outcome.value, mw.resolver, oracle);
        EmitFlow(bs, Before, mw.outcome.value, mw.resolver, oracle);
        ThreadedChained(bf.trace, Before, mw.outcome.value, oracle);
        if bf.outcome.Ok? {
          var call := Call(Handle, handler.value, "handle", bf.outcome.value);
          LastOfJoin(mw.trace, bf.trace);
        }
      }
    }
  }

  /** The last call of two joined segments is the second's last, or the first's when the
      second is empty. */
  lemma LastOfJoin(m: seq<Call>, b: seq<Call>)
    ensures |b| > 0 ==> Last(m + b) == Last(b)
    ensures |b| == 0 && |m| > 0 ==> Last(m + b) == Last(m)
  {
    if |b| == 0 {
      assert m + b == m;
    }
  }

  /** The after segment of a run holds only after-hook calls, made once `handle` has
      succeeded, and none of them follows a failed one. */
  lemma RunAfterSegment(st: Storage, res: Resolver, oracle: Oracle, cmd: ClassId, event: Value)
    ensures var g := Run(st, res, oracle, cmd, event).segments;
      && AllIn(g.after, Hook(After))
      && NoCallAfterFailure(g.after, oracle)
      && (|g.after| > 0 ==> |g.handle| == 1 && oracle(g.handle[0]).Ok?)
  {
    var (handler, res1) := Resolve(res, cmd);
    if handler.Some? {
      var mw := EmitHooks(Lookup(st, Middleware, cmd), Middleware, event, res1, oracle);
      if mw.outcome.Ok? {
        var bf := EmitHooks(Lookup(st, Before, cmd), Before, mw.outcome.value, mw.resolver, oracle);
        if bf.outcome.Ok? {
          var call := Call(Handle, handler.value, "handle", bf.outcome.value);
          if oracle(call).Ok? {
            var afs := Lookup(st, After, cmd);
            EmitShape(afs, After, oracle(call).value, bf.resolver, oracle);
            EmitFlow(afs, After, oracle(call).value, bf.resolver, oracle);
          }
        }
      }
    }
  }

  /** Every after hook gets what `handle` returned, so after hooks run only once
      `handle` has succeeded. */
  lemma RunAfterArgs(st: Storage, res: Resolver, oracle: Oracle, cmd: ClassId, event: Value)
    ensures var g := Run(st, res, oracle, cmd, event).segments;
      forall i :: 0 <= i < |g.after| ==> |g.handle| == 1 && oracle(g.handle[0]) == Ok(g.after[i].arg)
  {
    var (handler, res1) := Resolve(res, cmd);
    if handler.Some? {
      var mw := EmitHooks(Lookup(st, Middleware, cmd), Middleware, event, res1, oracle);
      if mw.outcome.Ok? {
        var bf := EmitHooks(Lookup(st, Before, cmd), Before, mw.outcome.value, mw.resolver, oracle);
        if bf.outcome.Ok? {
          var call := Call(Handle, handler.value, "handle", bf.outcome.value);
          if oracle(call).Ok? {
            EmitFlow(Lookup(st, After, cmd), After, oracle(call).value, bf.resolver, oracle);
          }
        }
      }
    }
  }

  /** The last call of a run is the last call of its last non-empty segment. */
  lemma LastOfSegments(m: seq<Call>, b: seq<Call>, h: seq<Call>, a: seq<Call>)
    requires |m + b + h + a| > 0
    ensures Last(m + b + h + a) ==
              if |a| > 0 then Last(a) else if |h| > 0 then Last(h) else if |b| > 0 then Last(b) else Last(m)
  {
  }

  /** How a failed run ends: a failing last call is the outcome, unchanged, so no
      error is wrapped or swallowed. */
  lemma RunFailure(st: Storage, res: Resolver, oracle: Oracle, cmd: ClassId, event: Value)
    ensures var r := Run(st, res, oracle, cmd, event);
      FailurePropagates(r.segments.Calls(), r.outcome, oracle)
  {
    var g := Run(st, res, oracle, cmd, event).segments;
    if |g.Calls()| > 0 {
      LastOfSegments(g.middleware, g.before, g.handle, g.after);
    }
    var (handler, res1) := Resolve(res, cmd);
    if handler.Some? {
      var ms := Lookup(st, Middleware, cmd);
      var mw := EmitHooks(ms, Middleware, event, res1, oracle);
      EmitEnd(ms, Middleware, event, res1, oracle);
      if mw.outcome.Ok? {
        var bs := Lookup(st, Before, cmd);
        var bf := EmitHooks(bs, Before, mw.outcome.value, mw.resolver, oracle);
        EmitEnd(bs, Before, mw.outcome.value, mw.resolver, oracle);
        if bf.outcome.Ok? {
          var call := Call(Handle, handler.value, "handle", bf.outcome.value);
          if oracle(call).Ok? {
            EmitEnd(Lookup(st, After, cmd), After, oracle(call).value, bf.resolver, oracle);
          }
        }
      }
    }
  }

  /** An error that no call raised comes from the container: the default container never
      gives a falsy handler or subscriber, so every error of a run on it is an error a
      hook or the handler raised. */
  lemma RunContainerErrors(st: Storage, res: Resolver, oracle: Oracle, cmd: ClassId, event: Value)
    ensures var r := Run(st, res, oracle, cmd, event);
      UncalledErrorsFromContainer(r.segments.Calls(), r.outcome, res, oracle)
  {
    var g := Run(st, res, oracle, cmd, event).segments;
    if |g.Calls()| > 0 {
      LastOfSegments(g.middleware, g.before, g.handle, g.after);
    }
    var (handler, res1) := Resolve(res, cmd);
    if handler.Some? {
      var ms := Lookup(st, Middleware, cmd);
      var mw := EmitHooks(ms, Middleware, event, res1, oracle);
      EmitEnd(ms, Middleware, event, res1, oracle);
      if mw.outcome.Ok? {
        var bs := Lookup(st, Before, cmd);
        var bf := EmitHooks(bs, Before, mw.outcome.value, mw.resolver, oracle);
        EmitEnd(bs, Before, mw.outcome.value, mw.resolver, oracle);
        if bf.outcome.Ok? {
          var call := Call(Handle, handler.value, "handle", bf.outcome.value);
          if oracle(call).Ok? {
            EmitEnd(Lookup(st, After, cmd), After, oracle(call).value, bf.resolver, oracle);
          }
        }
      }
    }
  }

  /** A successful run called every stored hook of the three kinds and `handle` exactly
      once, and returns exactly what `handle` returned. */
  lemma RunSuccess(st: Storage, res: Resolver, oracle: Oracle, cmd: ClassId, event: Value)
    ensures var r := Run(st, res, oracle, cmd, event); var g := r.segments;
      r.outcome.Ok? ==>
        && |g.handle| == 1 && oracle(g.handle[0]) == r.outcome
        && |g.middleware| == |Lookup(st, Middleware, cmd)|
        && |g.before| == |Lookup(st, Before, cmd)|
        && |g.after| == |Lookup(st, After, cmd)|
  {
    var (handler, res1) := Resolve(res, cmd);
    if handler.Some? {
      var ms := Lookup(st, Middleware, cmd);
      var mw := EmitHooks(ms, Middleware, event, res1, oracle);
      EmitEnd(ms, Middleware, event, res1, oracle);
      if mw.outcome.Ok? {
        var bs := Lookup(st, Before, cmd);
        var bf := EmitHooks(bs, Before, mw.outcome.value, mw.resolver, oracle);
        EmitEnd(bs, Before, mw.outcome.value, mw.resolver, oracle);
        if bf.outcome.Ok? {
          var call := Call(Handle, handler.value, "handle", bf.outcome.value);
          if oracle(call).Ok? {
            EmitEnd(Lookup(st, After, cmd), After, oracle(call).value, bf.resolver, oracle);
          }
        }
      }
    }
  }

  /** On the default container, when no hook and no handler throws, the run succeeds:
      every stored hook of the three kinds is called and `handle` exactly once. */
  lemma NothingThrowsRunSucceeds(st: Storage, d: DefaultContainer, oracle: Oracle, cmd: ClassId, event: Value)
    requires forall c :: oracle(c).Ok?
    ensures var r := Run(st, Default(d), oracle, cmd, event); var g := r.segments;
      && r.outcome.Ok?
      && |g.handle| == 1
      && |g.middleware| == |Lookup(st, Middleware, cmd)|
      && |g.before| == |Lookup(st, Before, cmd)|
      && |g.after| == |Lookup(st, After, cmd)|
  {
    RunFailure(st, Default(d), oracle, cmd, event);
    RunContainerErrors(st, Default(d), oracle, cmd, event);
    RunSuccess(st, Default(d), oracle, cmd, event);
  }

  /** A run only adds to the default container's cache, and keeps it consistent; the
      handler it resolved stays cached, and that cached instance is what `handle` was
      called on. */
  lemma RunKeepsContainer(st: Storage, res: Resolver, oracle: Oracle, cmd: ClassId, event: Value)
    ensures var r := Run(st, res, oracle, cmd, event);
      && ResolverGrows(res, r.resolver)
      && (ValidResolver(res) ==> ValidResolver(r.resolver))
      && (res.Default? ==>
            && cmd in r.resolver.container.instances
            && (|r.segments.handle| == 1 ==> r.segments.handle[0].target == r.resolver.container.instances[cmd]))
  {
    var (handler, res1) := Resolve(res, cmd);
    ResolveContract(res, cmd);
    RunShape(st, res, oracle, cmd, event);
    if handler.Some? {
      var ms := Lookup(st, Middleware, cmd);
      var mw := EmitHooks(ms, Middleware, event, res1, oracle);
      EmitContainer(ms, Middleware, event, res1, oracle);
      ResolverGrowsTransitive(res, res1, mw.resolver);
      if mw.outcome.Ok? {
        var bs := Lookup(st, Before, cmd);
        var bf := EmitHooks(bs, Before, mw.outcome.value, mw.resolver, oracle);
        EmitContainer(bs, Before, mw.outcome.value, mw.resolver, oracle);
        ResolverGrowsTransitive(res, mw.resolver, bf.resolver);
        if bf.outcome.Ok? {
          var call := Call(Handle, handler.value, "handle", bf.outcome.value);
          if oracle(call).Ok? {
            var afs := Lookup(st, After, cmd);
            var af := EmitHooks(afs, After, oracle(call).value, bf.resolver, oracle);
            EmitContainer(afs, After, oracle(call).value, bf.resolver, oracle);
            ResolverGrowsTransitive(res, bf.resolver, af.resolver);
          }
        }
      }
    }
  }

  /** In a trace where no call follows a failed one, a failed call is the last call,
      and when failures propagate it is the outcome. */
  lemma FailedCallIsLast(t: seq<Call>, i: nat, outcome: Result<Value, Error>, oracle: Oracle)
    requires NoCallAfterFailure(t, oracle) && FailurePropagates(t, outcome, oracle)
    requires i < |t| && oracle(t[i]).Err?
    ensures i == |t| - 1 && outcome == oracle(t[i])
  {
  }

  /** A failing middleware or before hook ends the run: it is the last call, `handle`
      and the after hooks never run, and its error is the run's outcome. */
  lemma HookFailureAborts(st: Storage, res: Resolver, oracle: Oracle, cmd: ClassId, event: Value, i: nat)
    requires var g := Run(st, res, oracle, cmd, event).segments;
      i < |g.middleware + g.before| && oracle((g.middleware + g.before)[i]).Err?
    ensures var r := Run(st, res, oracle, cmd, event); var g := r.segments;
      && i == |g.Calls()| - 1
      && g.handle == [] && g.after == []
      && r.outcome == oracle((g.middleware + g.before)[i])
  {
    var r := Run(st, res, oracle, cmd, event);
    var g := r.segments;
    RunFlow(st, res, oracle, cmd, event);
    RunFailure(st, res, oracle, cmd, event);
    assert g.Calls()[i] == (g.middleware + g.before)[i];
    FailedCallIsLast(g.Calls(), i, r.outcome, oracle);
  }

  /** A failing `handle` skips every after hook, and its error is the run's outcome. */
  lemma HandlerFailureSkipsAfterHooks(st: Storage, res: Resolver, oracle: Oracle, cmd: ClassId, event: Value)
    requires var g := Run(st, res, oracle, cmd, event).segments;
      |g.handle| == 1 && oracle(g.handle[0]).Err?
    ensures var r := Run(st, res, oracle, cmd, event);
      r.segments.after == [] && r.outcome == oracle(r.segments.handle[0])
  {
    var r := Run(st, res, oracle, cmd, event);
    var g := r.segments;
    RunFlow(st, res, oracle, cmd, event);
    RunFailure(st, res, oracle, cmd, event);
    var k := |g.middleware + g.before|;
    assert g.Calls()[k] == g.handle[0];
    FailedCallIsLast(g.Calls(), k, r.outcome, oracle);
  }

  /** A failing after hook is the run's outcome although `handle` already ran and
      succeeded. */
  lemma AfterHookFailurePropagates(st: Storage, res: Resolver, oracle: Oracle, cmd: ClassId, event: Value, i: nat)
    requires var g := Run(st, res, oracle, cmd, event).segments;
      i < |g.after| && oracle(g.after[i]).Err?
    ensures var r := Run(st, res, oracle, cmd, event); var g := r.segments;
      && |g.handle| == 1 && oracle(g.handle[0]).Ok?
      && i == |g.after| - 1
      && r.outcome == oracle(g.after[i])
  {
    var r := Run(st, res, oracle, cmd, event);
    var g := r.segments;
    RunAfterArgs(st, res, oracle, cmd, event);
    RunFlow(st, res, oracle, cmd, event);
    RunFailure(st, res, oracle, cmd, event);
    var k := |g.middleware + g.before + g.handle|;
    assert g.Calls()[k + i] == g.after[i];
    FailedCallIsLast(g.Calls(), k + i, r.outcome, oracle);
  }

  /** After `clear()`, a run on the default container calls nothing but `handle`, once,
      with the event, on an instance of the command class. */
  lemma RunAfterClear(st: Storage, d: DefaultContainer, oracle: Oracle, cmd: ClassId, event: Value)
    requires Valid(d)
    ensures var g := Run(Clear(st), Default(d), oracle, cmd, event).segments;
      && g.middleware == [] && g.before == [] && g.after == []
      && |g.handle| == 1 && g.handle[0].arg == event && g.handle[0].target.cls == cmd
  {
    var cleared := Clear(st);
    var g := Run(cleared, Default(d), oracle, cmd, event).segments;
    RunShape(cleared, Default(d), oracle, cmd, event);
    RunTargets(cleared, d, oracle, cmd, event);
    RunFlow(cleared, Default(d), oracle, cmd, event);
    assert Lookup(cleared, Middleware, cmd) == [] && Lookup(cleared, Before, cmd) == [];
    assert Lookup(cleared, After, cmd) == [];
  }

  /** Runs of the same command, one after another, each on the container the one before
      left. */
  function RunMany(st: Storage, res: Resolver, oracle: Oracle, cmd: ClassId, events: seq<Value>): seq<RunResult>
    decreases |events|
  {
    if |events| == 0 then []
    else
      var r := Run(st, res, oracle, cmd, events[0]);
      [r] + RunMany(st, r.resolver, oracle, cmd, events[1..])
  }

  /** One run with the handler already cached. */
  lemma RunOnCached(st: Storage, d: DefaultContainer, oracle: Oracle, cmd: ClassId, event: Value)
    requires Valid(d) && cmd in d.instances
    ensures var r := Run(st, Default(d), oracle, cmd, event);
      && r.resolver.Default? && Valid(r.resolver.container)
      && cmd in r.resolver.container.instances
      && r.resolver.container.instances[cmd] == d.instances[cmd]
      && (|r.segments.handle| == 1 ==> r.segments.handle[0].target == d.instances[cmd])
      && (r.outcome.Ok? ==> |r.segments.handle| == 1)
  {
    RunKeepsContainer(st, Default(d), oracle, cmd, event);
    RunSuccess(st, Default(d), oracle, cmd, event);
  }

  /** With the handler already cached, every later run calls `handle` on that same
      instance and constructs it again never. */
  lemma {:induction false} RunManyCached(st: Storage, d: DefaultContainer, oracle: Oracle, cmd: ClassId, events: seq<Value>)
    requires Valid(d) && cmd in d.instances
    ensures var rs := RunMany(st, Default(d), oracle, cmd, events);
      && |rs| == |events|
      && forall i :: 0 <= i < |rs| ==>
           && rs[i].resolver.Default? && Valid(rs[i].resolver.container)
           && cmd in rs[i].resolver.container.instances
           && rs[i].resolver.container.instances[cmd] == d.instances[cmd]
           && (|rs[i].segments.handle| == 1 ==> rs[i].segments.handle[0].target == d.instances[cmd])
           && (rs[i].outcome.Ok? ==> |rs[i].segments.handle| == 1)
    decreases |events|
  {
    if |events| > 0 {
      var r := Run(st, Default(d), oracle, cmd, events[0]);
      RunOnCached(st, d, oracle, cmd, events[0]);
      var d' := r.resolver.container;
      RunManyCached(st, d', oracle, cmd, events[1..]);
      var rest := RunMany(st, Default(d'), oracle, cmd, events[1..]);
      var rs := RunMany(st, Default(d), oracle, cmd, events);
      assert rs == [r] + rest;
      forall i | 0 < i < |rs|
        ensures rs[i] == rest[i - 1]
      {
      }
    }
  }

  /** Over a sequence of runs the container only grows: from the one given to the first
      run, and from each run's to the next's. */
  lemma {:induction false} RunManyGrows(st: Storage, res: Resolver, oracle: Oracle, cmd: ClassId, events: seq<Value>)
    ensures var rs := RunMany(st, res, oracle, cmd, events);
      && |rs| == |events|
      && (|rs| > 0 ==> ResolverGrows(res, rs[0].resolver))
      && forall i :: 0 <= i < |rs| - 1 ==> ResolverGrows(rs[i].resolver, rs[i + 1].resolver)
    decreases |events|
  {
    if |events| > 0 {
      var r := Run(st, res, oracle, cmd, events[0]);
      RunKeepsContainer(st, res, oracle, cmd, events[0]);
      RunManyGrows(st, r.resolver, oracle, cmd, events[1..]);
      var rest := RunMany(st, r.resolver, oracle, cmd, events[1..]);
      var rs := RunMany(st, res, oracle, cmd, events);
      assert rs == [r] + rest;
      forall i | 0 <= i < |rs| - 1
        ensures ResolverGrows(rs[i].resolver, rs[i + 1].resolver)
      {
        if i > 0 {
          assert rs[i] == rest[i - 1] && rs[i + 1] == rest[i];
        }
      }
    }
  }

  /** Dispatching one command any number of times on one default container constructs
      no class twice (each run's container grows into the next one's, and no log
      repeats a class) and calls `handle` on one and the same instance in every run
      that gets that far, which is every successful run. */
  lemma RepeatedRunsShareHandler(st: Storage, d: DefaultContainer, oracle: Oracle, cmd: ClassId, events: seq<Value>)
    requires Valid(d) && |events| > 0
    ensures var rs := RunMany(st, Default(d), oracle, cmd, events);
      && |rs| == |events|
      && (forall i :: 0 <= i < |rs| ==> rs[i].resolver.Default? && Valid(rs[i].resolver.container))
      && Grows(d, rs[0].resolver.container)
      && (forall i :: 0 <= i < |rs| - 1 ==> Grows(rs[i].resolver.container, rs[i + 1].resolver.container))
      && (forall i :: 0 <= i < |rs| && rs[i].outcome.Ok? ==> |rs[i].segments.handle| == 1)
      && (forall i, j :: 0 <= i < |rs| && 0 <= j < |rs| && |rs[i].segments.handle| == 1 && |rs[j].segments.handle| == 1 ==>
            rs[i].segments.handle[0].target == rs[j].segments.handle[0].target)
  {
    var r := Run(st, Default(d), oracle, cmd, events[0]);
    RunKeepsContainer(st, Default(d), oracle, cmd, events[0]);
    RunSuccess(st, Default(d), oracle, cmd, events[0]);
    var d' := r.resolver.container;
    RunManyCached(st, d', oracle, cmd, events[1..]);
    var rs := RunMany(st, Default(d), oracle, cmd, events);
    assert rs == [r] + RunMany(st, Default(d'), oracle, cmd, events[1..]);
    RunManyGrows(st, Default(d), oracle, cmd, events);
    forall i | 0 <= i < |rs| && |rs[i].segments.handle| == 1
      ensures rs[i].segments.handle[0].target == d'.instances[cmd]
    {
      if i > 0 {
        assert rs[i] == RunMany(st, Default(d'), oracle, cmd, events[1..])[i - 1];
      }
    }
  }
}

=== FILE: scenarios.dfy ===
/**
  Concrete dispatch scenarios: the situations the runner's own test suite sets up,
  stated over the model.
 */
module Scenarios {
  import opened Results
  import opened Metadata
  import opened Decorators
  import opened Containers
  import opened Runner

  const Cmd: ClassId := 0
  const Subscriber1: ClassId := 1
  const Subscriber2: ClassId := 2
  const Subscriber3: ClassId := 3

  /** Every call succeeds and leaves its argument as it found it. */
  function Echo(c: Call): Result<Value, Error> {
    Ok(c.arg)
  }

  const Hook1 := Binding(Cmd, Subscriber1, "onCommand", -1)
  const Hook2 := Binding(Cmd, Subscriber2, "onCommand", 0)
  const Hook3 := Binding(Cmd, Subscriber3, "onCommand", 1)

  /** Three after hooks declared at priorities -1, default and 1, in that order. */
  function OneAfterHook(): Storage {
    AfterCommand(NewStorage(), Cmd, Options(Some(-1)), Subscriber1, "onCommand")
  }

  function TwoAfterHooks(): Storage {
    AfterCommand(OneAfterHook(), Cmd, DefaultOptions, Subscriber2, "onCommand")
  }

  function ThreeAfterHooks(): Storage {
    AfterCommand(TwoAfterHooks(), Cmd, Options(Some(1)), Subscriber3, "onCommand")
  }

  /** One `@AfterCommand` re-sorts the command's list with the new binding appended. */
  lemma AfterCommandStep(s: Storage, c: ClassId, options: Options, target: ClassId, pk: string)
    ensures Lookup(AfterCommand(s, c, options, target, pk), After, c)
              == SortByPriority(Lookup(s, After, c) + [Binding(c, target, pk, PriorityOf(options))])
  {
  }

  lemma OneAfterHookStored()
    ensures Lookup(OneAfterHook(), After, Cmd) == [Hook1]
  {
    AfterCommandStep(NewStorage(), Cmd, Options(Some(-1)), Subscriber1, "onCommand");
    SortOfOne(Hook1);
  }

  lemma TwoAfterHooksStored()
    ensures Lookup(TwoAfterHooks(), After, Cmd) == [Hook2, Hook1]
  {
    OneAfterHookStored();
    AfterCommandStep(OneAfterHook(), Cmd, DefaultOptions, Subscriber2, "onCommand");
    SortOfTwo(Hook1, Hook2);
  }

  lemma ThirdAfterHookStored(s2: Storage)
    requires Lookup(s2, After, Cmd) == [Hook2, Hook1]
    ensures Lookup(AfterCommand(s2, Cmd, Options(Some(1)), Subscriber3, "onCommand"), After, Cmd)
              == [Hook3, Hook2, Hook1]
  {
    AfterCommandStep(s2, Cmd, Options(Some(1)), Subscriber3, "onCommand");
    SortOfThree(Hook1, Hook2, Hook3);
  }

  /** They are stored highest priority first: 1, then 0, then -1. */
  lemma PrioritiesStoredHighestFirst()
    ensures Lookup(ThreeAfterHooks(), After, Cmd) == [Hook3, Hook2, Hook1]
  {
    TwoAfterHooksStored();
    ThirdAfterHookStored(TwoAfterHooks());
  }

  /** The sort on one, two and three bindings, in the shape the registrations above
      produce: the old list with the new binding appended. */
  lemma SortOfOne(b1: Binding)
    ensures SortByPriority([] + [b1]) == [b1]
  {
    assert [] + [b1] == [b1];
  }

  /** A later binding whose priority is not below the earlier one's goes first. */
  lemma SortOfTwo(b1: Binding, b2: Binding)
    requires b1.priority <= b2.priority
    ensures SortByPriority([b1] + [b2]) == [b2, b1]
  {
    assert [b1] + [b2] == [b1, b2];
    assert [b1, b2][..1] == [b1];
    SortOfOne(b1);
  }

  /** Two bindings already in priority order stay as they are. */
  lemma SortOfOrderedPair(b1: Binding, b2: Binding)
    requires b1.priority < b2.priority
    ensures SortByPriority([b2, b1]) == [b2, b1]
  {
    assert [b2, b1][..1] == [b2];
    assert [b2] == [] + [b2];
    SortOfOne(b2);
    assert InsertByPriority([b2], b1) == [b2] + InsertByPriority([], b1);
  }

  lemma SortOfThree(b1: Binding, b2: Binding, b3: Binding)
    requires b1.priority < b2.priority < b3.priority
    ensures SortByPriority([b2, b1] + [b3]) == [b3, b2, b1]
  {
    SortAppend([b2, b1], b3);
    SortOfOrderedPair(b1, b2);
    assert InsertByPriority([b2, b1], b3) == [b3] + [b2, b1];
  }

  /** A run of a command with these three after hooks calls them in stored order. */
  lemma StoredAfterHooksRunInOrder(st: Storage)
    requires Lookup(st, After, Cmd) == [Hook3, Hook2, Hook1]
    ensures var g := Run(st, Default(NewContainer()), Echo, Cmd, 42).segments;
              |g.after| == 3 && g.after[0].target.cls == Subscriber3
              && g.after[1].target.cls == Subscriber2 && g.after[2].target.cls == Subscriber1
  {
    NothingThrowsRunSucceeds(st, NewContainer(), Echo, Cmd, 42);
    RunTargets(st, NewContainer(), Echo, Cmd, 42);
  }

  /** And a run calls them in that order, after the handler. */
  lemma PrioritiesRunHighestFirst()
    ensures var g := Run(ThreeAfterHooks(), Default(NewContainer()), Echo, Cmd, 42).segments;
              |g.after| == 3 && g.after[0].target.cls == Subscriber3
              && g.after[1].target.cls == Subscriber2 && g.after[2].target.cls == Subscriber1
  {
    PrioritiesStoredHighestFirst();
    StoredAfterHooksRunInOrder(ThreeAfterHooks());
  }

  const HookA := Binding(Cmd, Subscriber1, "a", 0)
  const HookB := Binding(Cmd, Subscriber2, "b", 0)

  /** A second hook at the priority of the one stored goes in front of it. */
  lemma SecondEqualHookFirst(s1: Storage)
    requires Lookup(s1, After, Cmd) == [HookA]
    ensures Lookup(AfterCommand(s1, Cmd, DefaultOptions, Subscriber2, "b"), After, Cmd) == [HookB, HookA]
  {
    AfterCommandStep(s1, Cmd, DefaultOptions, Subscriber2, "b");
    SortOfTwo(HookA, HookB);
  }

  /** Two after hooks at the same priority, declared A then B: the model's sort puts
      the later one first. */
  lemma EqualPrioritiesLatestFirst()
    ensures var s := AfterCommand(AfterCommand(NewStorage(), Cmd, DefaultOptions, Subscriber1, "a"),
                                  Cmd, DefaultOptions, Subscriber2, "b");
      Lookup(s, After, Cmd) == [HookB, HookA]
  {
    SecondEqualHookFirst(AfterCommand(NewStorage(), Cmd, DefaultOptions, Subscriber1, "a"));
  }

  const HookC := Binding(Cmd, Subscriber3, "c", 0)

  /** A third hook at the same priority goes in front, but re-sorting the whole list
      swaps the two stored before it: declared A, B, C, they are stored C, A, B. */
  lemma ThirdEqualHookReordersTies(s2: Storage)
    requires Lookup(s2, After, Cmd) == [HookB, HookA]
    ensures Lookup(AfterCommand(s2, Cmd, DefaultOptions, Subscriber3, "c"), After, Cmd) == [HookC, HookA, HookB]
  {
    AfterCommandStep(s2, Cmd, DefaultOptions, Subscriber3, "c");
    SortOfThreeTies(HookA, HookB, HookC);
  }

  /** Three equal priorities, two already sorted latest first and a third appended: the
      re-sort swaps the first two and puts the third ahead. */
  lemma SortOfThreeTies(b1: Binding, b2: Binding, b3: Binding)
    requires b1.priority == b2.priority == b3.priority
    ensures SortByPriority([b2, b1] + [b3]) == [b3, b1, b2]
  {
    SortAppend([b2, b1], b3);
    SortOfTwo(b2, b1);
    assert InsertByPriority([b1, b2], b3) == [b3] + [b1, b2];
  }

  /** `@Use` on a method other than `handle` is rejected and registers nothing. */
  lemma UseOnOtherMethodRejected(s: Storage, m: ClassId, target: ClassId)
    ensures Use(s, m, DefaultOptions, target, "onCommand") == Err(UseOnlyOnCommands)
    ensures Message(UseOnlyOnCommands) == Some("@Use() can only be used on Commands.")
  {
  }

  /** A middleware whose `use` throws: the handler is never called and the run fails
      with the middleware's own error. */
  lemma RejectingMiddlewareStopsRun(e: Error)
    ensures var s := Use(NewStorage(), Subscriber1, DefaultOptions, Cmd, "handle");
      && s.Ok?
      && var oracle := (c: Call) => if c.methodName == "use" then Err(e) else Ok(c.arg);
         var r := Run(s.value, Default(NewContainer()), oracle, Cmd, 7);
         r.segments.handle == [] && r.outcome == Err(e)
  {
    var s := Use(NewStorage(), Subscriber1, DefaultOptions, Cmd, "handle").value;
    var oracle := (c: Call) => if c.methodName == "use" then Err(e) else Ok(c.arg);
    var g := Run(s, Default(NewContainer()), oracle, Cmd, 7).segments;
    assert Lookup(s, Middleware, Cmd) == [Binding(Cmd, Subscriber1, "use", 0)];
    RunShape(s, Default(NewContainer()), oracle, Cmd, 7);
    RunSuccess(s, Default(NewContainer()), oracle, Cmd, 7);
    assert |g.middleware| <= 1;
  }

  /** One run of a command with no hooks: it returns its event, and its only effect on
      the container is the `get` of the handler class. */
  lemma HooklessRun(st: Storage, d: DefaultContainer, e: Value)
    requires Valid(d)
    ensures var r := Run(Clear(st), Default(d), Echo, Cmd, e);
      && r.outcome == Ok(e)
      && r.resolver == Default(Get(d, Cmd).1)
      && |r.segments.handle| == 1 && r.segments.handle[0].target == Get(d, Cmd).0
  {
    var cleared := Clear(st);
    NothingThrowsRunSucceeds(cleared, d, Echo, Cmd, e);
    RunSuccess(cleared, Default(d), Echo, Cmd, e);
    RunAfterClear(st, d, Echo, Cmd, e);
    assert Lookup(cleared, Middleware, Cmd) == [] && Lookup(cleared, Before, Cmd) == [];
    assert Lookup(cleared, After, Cmd) == [];
  }

  /** A command with no hooks, dispatched twice on one fresh default container, the
      second run on the container the first left: each run returns its own event, the
      handler class is constructed once, and both runs call `handle` on that one
      instance. */
  lemma SimpleCommandTwice(st: Storage, e1: Value, e2: Value)
    ensures var r1 := Run(Clear(st), Default(NewContainer()), Echo, Cmd, e1);
            var r2 := Run(Clear(st), r1.resolver, Echo, Cmd, e2);
      && r1.outcome == Ok(e1) && r2.outcome == Ok(e2)
      && r2.resolver == Default(DefaultContainer(map[Cmd := Instance(Cmd, 0)], [Cmd]))
      && r1.segments.handle[0].target == Instance(Cmd, 0) == r2.segments.handle[0].target
  {
    var d0 := NewContainer();
    var d1 := Get(d0, Cmd).1;
    assert d1 == DefaultContainer(map[Cmd := Instance(Cmd, 0)], [Cmd]);
    assert Get(d1, Cmd) == (Instance(Cmd, 0), d1);
    HooklessRun(st, d0, e1);
    HooklessRun(st, d1, e2);
  }

  /** A before hook that changes the event in place: `handle` sees the changed event,
      and the run returns what `handle` made of it. */
  function Increment(c: Call): Result<Value, Error> {
    if c.phase == Hook(Before) then Ok(c.arg + 1) else Ok(c.arg)
  }

  /** With one before hook and any number of after hooks, which leave the result as
      they find it. */
  lemma BeforeHookChangesWhatHandleSees(st: Storage, event: Value)
    requires Lookup(st, Middleware, Cmd) == []
    requires |Lookup(st, Before, Cmd)| == 1
    ensures var r := Run(st, Default(NewContainer()), Increment, Cmd, event);
      && |r.segments.before| == 1 && |r.segments.handle| == 1
      && r.segments.before[0].arg == event
      && r.segments.handle[0].arg == event + 1
      && r.outcome == Ok(event + 1)
  {
    var r := Run(st, Default(NewContainer()), Increment, Cmd, event);
    var g := r.segments;
    NothingThrowsRunSucceeds(st, NewContainer(), Increment, Cmd, event);
    RunShape(st, Default(NewContainer()), Increment, Cmd, event);
    RunFlow(st, Default(NewContainer()), Increment, Cmd, event);
    RunSuccess(st, Default(NewContainer()), Increment, Cmd, event);
    assert g.Calls() == [g.before[0], g.handle[0]] + g.after;
    assert g.Calls()[0] == g.before[0] && g.Calls()[1] == g.handle[0];
  }

  /** One `@BeforeCommand` on a fresh registry gives such a command. */
  lemma OneBeforeHook(target: ClassId, pk: string)
    ensures var st := BeforeCommand(NewStorage(), Cmd, DefaultOptions, target, pk);
      && Lookup(st, Middleware, Cmd) == []
      && |Lookup(st, Before, Cmd)| == 1
  {
  }
}
